=== FILE: README.md ===
# Study-capsule front end, modelled in Dafny

The site is a single-page study-music front end written in plain browser
JavaScript. Its logic lives in four scripts, and this project models that
logic as pure Dafny functions over immutable datatypes:

- `app.js` keeps the track library and the concept chips. It routes the page
  by its location hash. It also builds the short summary of a track's notes.
- `decrypted-text.js` scrambles a heading and decrypts it again. The effect
  runs on an interval, reveals characters in one of three orders and stops
  after a fixed number of iterations.
- `text-type.js` is a typewriter. It types a sentence, pauses, deletes it and
  moves on to the next one, changing colour as it goes.
- `script.js` is the selection panel. The user toggles one music ambience and
  one study topic. A summary and a launch guard follow the pair chosen.

Modules, one per file:

| module | file | models |
|---|---|---|
| `Wrappers` | `wrappers.dfy` | `Option` |
| `JsString` | `js_string.dfy` | ECMAScript white space, `trim`, `/\s+/g` collapsing, ASCII `toLowerCase`, `replace` with a one-character pattern |
| `Notes` | `notes.dfy` | `summarizeNotes` |
| `Concepts` | `concepts.dfy` | `handleAddConcept` and the remove button of a concept chip |
| `Tracks` | `tracks.dfy` | the delete button of a saved track and the save-draft button |
| `Sections` | `sections.dfy` | `handleHashChange` |
| `RevealOrder` | `reveal_order.dfy` | `getNextIndex` and the reveal count of `updateText` |
| `Scramble` | `scramble.dfy` | the `DecryptedTextEffect` life cycle: constructor, start, stop, finish, interval tick, `updateText` |
| `TextType` | `text_type.dfy` | `parseSentences`, the `Typewriter` options, `start` and `tick` |
| `OptionPanel` | `option_panel.dfy` | `handleOptionClick`, `updateSelections`, `updateSummary` and the launch button |

Everything the browser provides becomes data:
- The DOM is a record of the fields the handlers read and write.
- `localStorage` is the list itself.
- A timer is the delay or period the handler would pass to `setTimeout` or
  `setInterval`.
- `Math.random` is a `noise` function of the character position.
- `JSON.parse` and `parseInt`/`parseFloat` are given by their outcome
  (`Parsed`, `Option<int>`, `Option<real>`).

## Model

| member | source | states |
|---|---|---|
| JsString.Trim | app.js:236 | the trimmed text is no longer than the input, and when non-empty it starts and ends with a non-white-space character |
| JsString.TrimFrame | app.js:284 | trimming removes exactly a white-space prefix and a white-space suffix: `trim(a + m + b) == m` whenever `a`, `b` are white space and `m` has no white space at its ends |
| JsString.TrimBlank | app.js:236-237 | `trim` gives the empty string exactly when the input is all white space, the case in which `handleAddConcept` returns early |
| JsString.ToLower | app.js:238 | the lower-cased text has the same length, and each character is lowered when it is an ASCII capital and kept otherwise |
| JsString.ToLowerEqual | app.js:238 | two strings lower-case alike exactly when they have the same length and agree position by position up to ASCII case, the two letters of a pair being 32 code points apart |
| JsString.CollapseWhitespace | app.js:284 | the collapsed text is no longer than the input, is empty only for empty input and starts with white space exactly when the input does |
| JsString.CollapseIsCollapsed | app.js:284 | after `replace(/\s+/g, ' ')` no two white-space characters are adjacent and every white-space character left is a plain space |
| JsString.CollapseKeepsNonWhitespace | app.js:284 | collapsing keeps every non-white-space character, in order |
| JsString.CollapseFixesCollapsed | app.js:284 | collapsing text that is already collapsed changes nothing |
| JsString.ReplaceFirst | app.js:76 | `replace('#', '')` removes one character when the text contains `#` and changes nothing otherwise |
| JsString.ReplaceFirstSplit | app.js:76 | `replace('#', '')` removes the first `#` only: the text before it and everything after it survive, later `#` included |
| Notes.CleanIsJoinedWords | app.js:284 | the cleaned notes are the maximal white-space-free words of the input joined by single spaces |
| Notes.SummarizeNotes | app.js:283-287 | a summary is never longer than 140 characters |
| Notes.SummarizeNotesSpec | app.js:283-287 | notes whose joined words fit in 140 characters come back whole; longer ones become their first 137 characters plus an ellipsis, 138 characters in all |
| Notes.SummaryIsNormal | app.js:283-287 | a summary has single spaces only and no white space at either end |
| Notes.SummarizeIdempotent | app.js:283-287 | summarising a summary gives it back unchanged |
| Notes.SummarizeNotesAsWritten | app.js:283-287 | the summary as written is never longer than 140 characters either |
| Notes.AsWrittenEndsInMojibake | app.js:286 | as written, a long summary is 140 characters and ends in the three characters `â€¦` rather than an ellipsis, so it differs from the intended summary (see Findings) |
| Concepts.AddConcept | app.js:235-246 | adding grows the buffer by at most one and keeps the old chips in front; a non-blank input clears the field, and its trimmed value is then present up to case |
| Concepts.AddBlankIsNoOp | app.js:236-237 | blank input changes neither the buffer nor the input field |
| Concepts.AddAppendsIffNew | app.js:235-246 | for non-blank input the trimmed value is appended exactly when no chip equals it up to case, the buffer is unchanged exactly when one does, and the field is cleared either way |
| Concepts.AddKeepsNoCaseDuplicates | app.js:238-243 | a buffer with no two chips equal up to case keeps that property after an add |
| Concepts.AddTwiceIsAddOnce | app.js:238-243 | adding the same input twice leaves the same buffer as adding it once |
| Concepts.RemoveConcept | app.js:225 | `splice(index, 1)` removes exactly the chip at `index`: earlier chips stay where they were, later ones move down by one, and an index past the end changes nothing |
| Concepts.RemoveUndoesAdd | app.js:225 | removing the chip an add has just appended restores the old buffer |
| Concepts.RemoveKeepsNoCaseDuplicates | app.js:225 | removing a chip keeps a duplicate-free buffer duplicate-free |
| Concepts.RemoveIsMultisetDelete | app.js:225 | the chips left are the old ones minus one occurrence of the removed chip |
| Tracks.DeleteTrack | app.js:161 | the tracks kept are exactly the saved ones whose id differs from the deleted id |
| Tracks.DeleteCount | app.js:161 | deleting removes one track per track with that id and leaves none with it |
| Tracks.DeleteDistributes | app.js:161 | the filter acts on each part of a list independently |
| Tracks.DeleteIdempotent | app.js:161 | deleting the same id twice is deleting it once |
| Tracks.DeleteAbsent | app.js:161 | deleting an id no track has changes nothing |
| Tracks.SaveDraft | app.js:433-442 | without a draft nothing changes; with one, a copy goes to the front of the list, the draft stays, and the button is disabled and labelled `Saved` |
| Tracks.DeleteUndoesSave | app.js:161 | deleting the id of a freshly saved draft whose id was new restores the old list |
| Sections.ResolveHash | app.js:75-79 | the settled hash is `#menu` or a hash whose text without its first `#` is a known id; a history write happens only to install `#menu`, and otherwise the hash is the location hash, or `#menu` when that is empty |
| Sections.ResolvedHashIsKnown | app.js:75-79 | a location hash settles on `#menu` or on `#` followed by a known id, and a non-empty one is kept exactly when it names a known id or is `#menu` |
| Sections.ResolveIdempotent | app.js:75-79 | resolving the hash a resolution settled on settles on that same hash again |
| Sections.KnownHashKept | app.js:75-79 | the hash of a known section is kept as it is, with no history write |
| Sections.ShowSection | app.js:81-84 | a section is shown and active exactly when `#` followed by its id is the hash, and hidden otherwise |
| Sections.MarkLink | app.js:90-93 | a link's `aria-current` is `page` exactly when its `href` is the hash, and `false` otherwise |
| Sections.HandleHashChange | app.js:74-98 | the handler resolves the hash, updates every section and every link against it and closes the navigation menu |
| Sections.ExactlyOneVisible | app.js:74-98 | when the section ids are distinct and include `menu`, exactly one section is visible after the handler runs |
| RevealOrder.FirstMissing | decrypted-text.js:110-113 | the scan returns the smallest unrevealed index in range, and nothing only when every index in range is revealed |
| RevealOrder.NextIndex | decrypted-text.js:98-117 | `start` and `end` always give an index; `center` gives an in-range, unrevealed index, and gives nothing exactly when every index is revealed |
| RevealOrder.RevealNext | decrypted-text.js:91-96 | a sequential step adds at most one index to the revealed set and removes none |
| RevealOrder.StartOrder | decrypted-text.js:115-116 | in the `start` direction the first `k` steps reveal exactly the positions `0 .. k-1` |
| RevealOrder.EndOrder | decrypted-text.js:100-102 | in the `end` direction the first `k` steps reveal exactly the last `k` positions |
| RevealOrder.CenterOrder | decrypted-text.js:103-109 | in the `center` direction the first `k` steps (up to the length) reveal a contiguous window around the middle that grows right and left in turn |
| RevealOrder.AllRevealedAfterLength | decrypted-text.js:98-117 | after as many steps as the text has characters, every direction has revealed exactly every position |
| RevealOrder.RevealedAfterSize | decrypted-text.js:91-117 | each sequential step, up to the length, reveals one new position |
| RevealOrder.RevealCount | decrypted-text.js:122-124 | the non-sequential reveal count never exceeds the text length |
| RevealOrder.RevealCountMonotone | decrypted-text.js:122-124 | the reveal count never decreases as the iteration grows |
| RevealOrder.RevealCountFull | decrypted-text.js:122-124 | once the iteration reaches a positive maximum, the whole text is revealed |
| Scramble.NewEffect | decrypted-text.js:4-23 | a new effect shows its original text, with nothing running, nothing revealed and iteration 0 |
| Scramble.Defaults | decrypted-text.js:6-13 | without attributes the effect uses speed 50, 12 iterations, the default pool, hover, start direction and no sequential mode |
| Scramble.OrElse | decrypted-text.js:6-12 | an attribute falls back to its default unless it is present and non-empty |
| Scramble.StopScramble | decrypted-text.js:73-83 | stopping always clears the interval; with `skipReset` nothing else changes; otherwise scrambling ends, the revealed set is emptied and the original text is shown |
| Scramble.Finish | decrypted-text.js:85-89 | finishing clears the interval, ends scrambling and shows the original text, keeping the revealed set and iteration |
| Scramble.StartScramble | decrypted-text.js:51-71 | a running effect is left alone; otherwise scrambling starts from iteration 0 with nothing revealed, on an interval of period `max(16, speed)` that remembers `runOnce`, so `data-decrypt-speed` sets the period but never below 16 ms |
| Scramble.StartIdempotent | decrypted-text.js:52 | starting twice is starting once |
| Scramble.PointerEnter | decrypted-text.js:29-32 | for a `hover` or `both` trigger, `pointerenter` and `focus` call `startScramble(false)`; for any other trigger they do nothing |
| Scramble.PointerLeave | decrypted-text.js:29-33 | for a `hover` or `both` trigger, `pointerleave` and `blur` call `stopScramble(false)`; for any other trigger they do nothing |
| Scramble.LeaveRestores | decrypted-text.js:29-34 | for a hover trigger, entering an idle element starts a run, and leaving after any number of its ticks leaves the original text, no interval and nothing revealed |
| Scramble.Intersect | decrypted-text.js:36-48 | for `view` or `both`, the first intersection starts a `runOnce` scramble and marks the effect as animated; later ones, non-intersecting entries and other triggers change nothing |
| Scramble.IntersectOnce | decrypted-text.js:39-42 | a second intersection after the first changes nothing |
| Scramble.UpdateText | decrypted-text.js:119-142 | the output has the text's length; spaces stay spaces; revealed positions show the original character; the others show a pool character, or the original one when the pool is empty |
| Scramble.FullRevealIsOriginal | decrypted-text.js:126-141 | when every position is revealed the output is the original text |
| Scramble.RunTicks | decrypted-text.js:57-70 | repeated firings of the interval, stopping once it is cleared, never change the configuration or the `hasAnimated` flag |
| Scramble.Tick | decrypted-text.js:57-70 | each tick advances the iteration by one; the interval is cleared exactly when the maximum is reached or every character is revealed, and the original text is then shown with scrambling ended; in sequential mode the next index is revealed first; a tick that keeps running leaves the flag as it was and shows the redraw of `updateText` for the new iteration and revealed set |
| Scramble.RunEnds | decrypted-text.js:57-70 | a running effect ends within its maximum number of ticks and shows its original text |
| Scramble.StartedRunEnds | decrypted-text.js:51-71 | after a start, `max(1, maxIterations)` ticks end the run with the original text shown |
| Scramble.TickFollowsOrder | decrypted-text.js:59-61 | in sequential mode each tick reveals the next index in the chosen direction's order |
| Scramble.SequentialRunEnds | decrypted-text.js:57-70 | in sequential mode the run ends no later than the text length in ticks, whatever the maximum |
| TextType.ParseSentences | text-type.js:37-45 | a missing or empty attribute gives no sentences; a JSON array is taken as it is; any other JSON value becomes the one string `String(parsed)` renders; text that is not JSON becomes itself |
| TextType.NewTyper | text-type.js:12-27 | a new typewriter starts at sentence 0, character 0, typing, with nothing shown, and its sentences and colours are the parsed attributes |
| TextType.NewIsValid | text-type.js:12-34 | a typewriter with at least one sentence starts in a well-formed state |
| TextType.Start | text-type.js:87-90 | `start` does nothing exactly when there are no sentences |
| TextType.Construct | text-type.js:12-34 | the constructor builds the fresh typewriter and runs `start` at once unless `data-type-start-on-visible` is `true`, so when it starts at once the first step is exactly `start` of the fresh typewriter, and there is one exactly when there is at least one sentence |
| TextType.ConstructTypesFirstChar | text-type.js:28-34 | a typewriter that starts at once on a first sentence of two or more characters already shows its first character and schedules the next tick at its typing speed |
| TextType.Prefix | text-type.js:102 | `fullText.slice(0, n)` is the first `n` characters of the text, or the whole text when it is shorter |
| TextType.Tick | text-type.js:92-129 | a tick throws exactly when the current sentence is a truthy non-string; a scheduled tick keeps the sentences, colours and options, and stays on a valid sentence; a halt happens only at the end of the last sentence when not looping |
| TextType.TickKeepsValid | text-type.js:92-129 | a tick keeps the typewriter's state well-formed |
| TextType.AdvanceKeepsValid | text-type.js:120-123 | moving to the next sentence keeps the typewriter's state well-formed |
| TextType.DelayRules | text-type.js:112-126 | the delay is the pause at the end of a sentence, 400 ms after the last deletion (when it moves to the next sentence, cyclically), the deleting speed while deleting and the typing speed otherwise |
| TextType.HaltsOnLastSentence | text-type.js:114-117 | without looping, the typewriter halts with the whole last sentence shown |
| TextType.ColorRule | text-type.js:105-110 | the colour becomes the current sentence's entry of the colour list, taken cyclically, when that entry is truthy, and is kept otherwise |
| TextType.TypingTrace | text-type.js:96-103 | `k` typing ticks show the first `currentChar + k` characters of the sentence |
| TextType.DeletingTrace | text-type.js:96-103 | `k` deleting ticks show the first `currentChar - k` characters of the sentence |
| OptionPanel.Toggle | script.js:93 | clicking the chosen id clears the choice; clicking any other id chooses it |
| OptionPanel.Click | script.js:88-98 | a music card toggles the music choice and leaves the topic; a topic card toggles the topic choice and leaves the music; any other card changes nothing |
| OptionPanel.ClickTwice | script.js:92-98 | clicking the same card twice keeps its group's choice when that card was the choice, and otherwise leaves the group with no choice |
| OptionPanel.UpdateSelections | script.js:104-110 | every card is marked exactly when its group's choice is its id |
| OptionPanel.HandleOptionClick | script.js:88-102 | the click updates the choice and re-marks every card from it; the handler throws exactly when `updateSummary` on the new choice throws, leaving the summary as it was, and otherwise the summary is the one `updateSummary` gives for the new choice |
| OptionPanel.MarksFollowChoice | script.js:104-110 | after a click a music or topic card is marked exactly when it is its group's choice, and any other card is unmarked |
| OptionPanel.ClickMarksCard | script.js:88-110 | a clicked music card is marked exactly when it was not already the chosen one |
| OptionPanel.UpdateSummary | script.js:112-137 | launch is disabled and the meta block hidden exactly when the pair is incomplete; the summary throws only when both are chosen |
| OptionPanel.KnownPairSummary | script.js:113-122 | a known pair shows the title `music × topic` and the topic line, with launch enabled |
| OptionPanel.UnknownTopicSummary | script.js:113-120 | with a known music and a topic id outside the catalogue, an inherited property name shows `undefined` as the topic in the title and an empty topic line, and any other id throws |
| OptionPanel.PartialTitle | script.js:123-130 | with only one of the two chosen, the title is `Continue with … and …`, with the missing side named generically, and launch stays disabled |
| OptionPanel.LaunchClick | script.js:181-184 | launch is ignored unless both music and topic are chosen |
| OptionPanel.LaunchMatchesSummary | script.js:181-200 | launch raises its alert exactly when the summary enables the button, and the alert opens with the summary's title |

## Left out

- Lengths are counted in code points. JavaScript counts UTF-16 code units. The two agree for all text outside the astral planes, and for all the fixed strings of the site.
- JsString.ToLower: lowers ASCII capitals only. JavaScript's full Unicode case mapping is not modelled.
- RevealOrder.RevealCount: computes `floor(iteration * len / max)` exactly. JavaScript computes `floor((iteration / max) * len)` in floating point, and the two can differ by one when the quotient rounds just below an integer.
- `parseInt` and `parseFloat` results that are `NaN` are not modelled. A numeric attribute is either absent or a number.
- `Math.random` is modelled as an arbitrary `noise` function. No distribution is claimed.
- The DOM is left out: element creation, focus, `requestAnimationFrame`, ARIA labels, CSS classes other than the ones the handlers toggle, and the card markup of `renderSavedTracks` and `renderConcepts`. The lists those renderers iterate are modelled.
- Persistence is left out. `loadTracks`, `saveTracks`, `loadConcepts` and `saveConcepts` move the same lists to and from `localStorage`, and JSON that is not a list or holds non-strings is not modelled.
- Timers are left out. `setInterval`, `setTimeout` and the scheduling between ticks are not modelled: a tick is a function call, and the period or delay it would use is returned as data.
- The intersection observer's 0.2 threshold is left out. The typewriter's `observeVisibility` (text-type.js:74-85) is left out too: `TextType.StartsAtOnce` models only the branch at text-type.js:30 that decides whether the constructor starts at once, and the later start when the element is seen is not modelled.
- The typewriter's cursor element, its 500 ms blink and `destroy` are left out, since they only touch presentation.
- The menu cursor trail of `app.js` is left out. So are the generate form's submit handler (other than the summary it calls), `toggleNav`, `setTopicInputState` and `setStyleInputState`: all of them only touch DOM state.
- The panel's open and close handlers, the Escape key and the floating symbols of `script.js` are left out as presentation.
- `ribbons.js`, `shiny-text.js`, the backend and the Python demo generators are not part of this model.
- A card with no `data-type` is modelled as a kind that matches neither group, which is what the source does with it. A card with a group but no `data-id` is not represented, because ids are strings here. In script.js:89-98 its click sets the group's choice to `undefined`, or to `null` when it was `undefined` already, so either way the choice is cleared.
- In `startScramble`, after `finish` the hover branch sets `isScrambling` to false a second time (decrypted-text.js:65-68). `Scramble.Tick` keeps this step, although it changes nothing, because `finish` has already cleared the flag.

## Findings

| source | as written | input that shows it | evidently intended | confidence | as-written member | corrected member |
|---|---|---|---|---|---|---|
| app.js:286 | the suffix appended after the first 137 characters is the three characters `â€¦`, the UTF-8 bytes of U+2026 read as Windows-1252, so a long summary is 140 characters ending in that text | notes of 141 letters `a` | a summary of 138 characters: the first 137 and one horizontal ellipsis U+2026 | medium, not executed | Notes.SummarizeNotesAsWritten, Notes.AsWrittenEndsInMojibake | Notes.SummarizeNotes, Notes.SummarizeNotesSpec |

=== FILE: concepts.dfy ===
/**
 * The concept cue list of the create form (app.js `handleAddConcept` and
 * the remove button of `renderConcepts`): entries are trimmed, blanks are
 * refused, and an entry equal to an existing one up to letter case is not
 * added a second time.
 */
module Concepts {
  import opened JsString

  /** The concept buffer together with the text currently typed in the concept input. */
  datatype Editor = Editor(buffer: seq<string>, input: string)

  /** `conceptBuffer.some(entry => entry.toLowerCase() === value.toLowerCase())`. */
  predicate HasCaseless(buffer: seq<string>, value: string) {
    exists i | 0 <= i < |buffer| :: ToLower(buffer[i]) == ToLower(value)
  }

  /** No two entries share a lower-case form. */
  ghost predicate NoCaseDuplicates(buffer: seq<string>) {
    forall i, j :: 0 <= i < j < |buffer| ==> ToLower(buffer[i]) != ToLower(buffer[j])
  }

  /**
   * `handleAddConcept`. A blank input returns before the input is
   * cleared; otherwise the trimmed value is appended unless an entry
   * matches it up to case, and the input is cleared either way.
   */
  function AddConcept(e: Editor): (r: Editor)
    ensures |e.buffer| <= |r.buffer| <= |e.buffer| + 1
    ensures r.buffer[..|e.buffer|] == e.buffer
    ensures Trim(e.input) != "" ==> r.input == "" && HasCaseless(r.buffer, Trim(e.input))
  {
    var value := Trim(e.input);
    if value == "" then e
    else if HasCaseless(e.buffer, value) then e.(input := "")
    else
      var b := e.buffer + [value];
      assert ToLower(b[|e.buffer|]) == ToLower(value);
      Editor(b, "")
  }

  /** `conceptBuffer.splice(index, 1)`; an index past the end removes nothing. */
  function RemoveConcept(buffer: seq<string>, index: nat): (r: seq<string>)
    ensures index < |buffer| ==> |r| == |buffer| - 1
    ensures index >= |buffer| ==> r == buffer
    ensures forall k :: 0 <= k < index && k < |r| ==> r[k] == buffer[k]
    ensures forall k :: index <= k < |r| ==> r[k] == buffer[k + 1]
  {
    if index < |buffer| then buffer[..index] + buffer[index + 1..] else buffer
  }

  // ---------------------------------------------------------------------
  // Properties

  /** A blank or whitespace-only input changes nothing, not even the input. */
  lemma AddBlankIsNoOp(e: Editor)
    requires AllWhitespace(e.input)
    ensures AddConcept(e) == e
  {
    TrimBlank(e.input);
  }

  /**
   * A non-blank input is appended, trimmed, exactly when no entry matches
   * it up to case; otherwise the buffer stays as it was.
   */
  lemma AddAppendsIffNew(e: Editor)
    requires !AllWhitespace(e.input)
    ensures var r := AddConcept(e);
      && r.input == ""
      && (r.buffer == e.buffer + [Trim(e.input)] <==> !HasCaseless(e.buffer, Trim(e.input)))
      && (r.buffer == e.buffer <==> HasCaseless(e.buffer, Trim(e.input)))
  {
    TrimBlank(e.input);
  }

  /** Adding keeps the buffer free of entries that differ only in case. */
  lemma AddKeepsNoCaseDuplicates(e: Editor)
    requires NoCaseDuplicates(e.buffer)
    ensures NoCaseDuplicates(AddConcept(e).buffer)
  {
    var value := Trim(e.input);
    if value != "" && !HasCaseless(e.buffer, value) {
      var b := e.buffer + [value];
      forall i, j | 0 <= i < j < |b| ensures ToLower(b[i]) != ToLower(b[j]) {
        if j == |e.buffer| {
          assert b[i] == e.buffer[i];
        } else {
          assert b[i] == e.buffer[i] && b[j] == e.buffer[j];
        }
      }
    }
  }

  /** Typing the same text again after it was added changes the buffer no further. */
  lemma AddTwiceIsAddOnce(e: Editor)
    ensures AddConcept(AddConcept(e).(input := e.input)).buffer == AddConcept(e).buffer
  {
  }

  /** Removing the entry that was just added gives back the earlier buffer. */
  lemma RemoveUndoesAdd(e: Editor)
    requires !AllWhitespace(e.input) && !HasCaseless(e.buffer, Trim(e.input))
    ensures RemoveConcept(AddConcept(e).buffer, |e.buffer|) == e.buffer
  {
    AddAppendsIffNew(e);
    var b := e.buffer + [Trim(e.input)];
    assert b[..|e.buffer|] == e.buffer;
  }

  /** Removal keeps the buffer free of entries that differ only in case. */
  lemma RemoveKeepsNoCaseDuplicates(buffer: seq<string>, index: nat)
    requires NoCaseDuplicates(buffer)
    ensures NoCaseDuplicates(RemoveConcept(buffer, index))
  {
    var r := RemoveConcept(buffer, index);
    forall i, j | 0 <= i < j < |r| ensures ToLower(r[i]) != ToLower(r[j]) {
      var i' := if i < index then i else i + 1;
      var j' := if j < index then j else j + 1;
      assert r[i] == buffer[i'] && r[j] == buffer[j'];
    }
  }

  /** Removal deletes one occurrence of the chosen entry and nothing else. */
  lemma RemoveIsMultisetDelete(buffer: seq<string>, index: nat)
    requires index < |buffer|
    ensures multiset(RemoveConcept(buffer, index)) == multiset(buffer) - multiset{buffer[index]}
  {
    assert buffer == buffer[..index] + [buffer[index]] + buffer[index + 1..];
  }
}

=== FILE: js_string.dfy ===
/**
 * The parts of JavaScript's string semantics the page relies on: the
 * whitespace class shared by `\s` and `String.prototype.trim`, trimming,
 * lower-casing, the global `/\s+/g -> ' '` replacement and the first-match
 * string `replace`.
 */
module JsString {

  /** WhiteSpace and LineTerminator code points of ECMAScript: the class `\s` and `trim` use. */
  predicate IsWhitespace(c: char) {
    || ('\t' <= c <= '\r') || c == ' ' || c == '\U{00A0}' || c == '\U{1680}'
    || ('\U{2000}' <= c <= '\U{200A}') || c == '\U{2028}' || c == '\U{2029}'
    || c == '\U{202F}' || c == '\U{205F}' || c == '\U{3000}' || c == '\U{FEFF}'
  }

  ghost predicate AllWhitespace(s: string) {
    forall k :: 0 <= k < |s| ==> IsWhitespace(s[k])
  }

  /** Drops the leading whitespace run. */
  function TrimStart(s: string): (r: string)
    ensures |r| <= |s|
    ensures |r| > 0 ==> !IsWhitespace(r[0])
  {
    if |s| > 0 && IsWhitespace(s[0]) then TrimStart(s[1..]) else s
  }

  /** Drops the trailing whitespace run. */
  function TrimEnd(s: string): (r: string)
    ensures |r| <= |s|
    ensures |r| > 0 ==> !IsWhitespace(r[|r| - 1])
  {
    if |s| > 0 && IsWhitespace(s[|s| - 1]) then TrimEnd(s[..|s| - 1]) else s
  }

  /** `String.prototype.trim`: what is left once both whitespace runs at the ends are gone. */
  function Trim(s: string): (r: string)
    ensures |r| <= |s|
    ensures |r| > 0 ==> !IsWhitespace(r[0]) && !IsWhitespace(r[|r| - 1])
  {
    var t := TrimStart(s);
    if t == [] then [] else TrimEndIsPrefix(t); TrimEnd(t)
  }

  /** `TrimStart` removes exactly the leading whitespace run. */
  lemma {:induction false} TrimStartIsSuffix(s: string)
    ensures var r := TrimStart(s);
      r == s[|s| - |r|..] && AllWhitespace(s[..|s| - |r|])
  {
    if |s| > 0 && IsWhitespace(s[0]) {
      TrimStartIsSuffix(s[1..]);
      var r := TrimStart(s);
      var n := |s| - |r|;
      assert s[1..][..n - 1] == s[1..n];
      forall k | 0 <= k < n ensures IsWhitespace(s[..n][k]) {
        if k > 0 { assert s[..n][k] == s[1..][..n - 1][k - 1]; }
      }
    }
  }

  /** `TrimEnd` removes exactly the trailing whitespace run. */
  lemma {:induction false} TrimEndIsPrefix(s: string)
    ensures var r := TrimEnd(s);
      r == s[..|r|] && AllWhitespace(s[|r|..])
  {
    if |s| > 0 && IsWhitespace(s[|s| - 1]) {
      var p := s[..|s| - 1];
      TrimEndIsPrefix(p);
      var r := TrimEnd(s);
      assert p[..|r|] == s[..|r|];
      forall k | |r| <= k < |s| ensures IsWhitespace(s[k]) {
        if k < |s| - 1 { assert s[k] == p[|r|..][k - |r|]; }
      }
    }
  }

  /** Blanks leading whitespace in front of `y` disappear under `TrimStart`. */
  lemma {:induction false} TrimStartPrefix(a: string, y: string)
    requires AllWhitespace(a)
    requires |y| > 0 ==> !IsWhitespace(y[0])
    ensures TrimStart(a + y) == y
    decreases |a|
  {
    if |a| > 0 {
      assert (a + y)[1..] == a[1..] + y;
      TrimStartPrefix(a[1..], y);
    } else {
      assert a + y == y;
    }
  }

  /** Trailing whitespace behind `y` disappears under `TrimEnd`. */
  lemma {:induction false} TrimEndSuffix(y: string, b: string)
    requires AllWhitespace(b)
    requires |y| > 0 ==> !IsWhitespace(y[|y| - 1])
    ensures TrimEnd(y + b) == y
    decreases |b|
  {
    if |b| > 0 {
      var z := y + b;
      assert z[..|z| - 1] == y + b[..|b| - 1];
      assert z[|z| - 1] == b[|b| - 1];
      TrimEndSuffix(y, b[..|b| - 1]);
    } else {
      assert y + b == y;
    }
  }

  /**
   * `trim` removes exactly a whitespace frame: for any string written as
   * whitespace `a`, a core `m` that neither starts nor ends with whitespace,
   * and whitespace `b`, the result is `m`.
   */
  lemma TrimFrame(a: string, m: string, b: string)
    requires AllWhitespace(a) && AllWhitespace(b)
    requires |m| > 0 ==> !IsWhitespace(m[0]) && !IsWhitespace(m[|m| - 1])
    ensures Trim(a + m + b) == m
  {
    if |m| == 0 {
      var x := a + m + b;
      assert AllWhitespace(x) by {
        forall k | 0 <= k < |x| ensures IsWhitespace(x[k]) {
          if k < |a| { assert x[k] == a[k]; } else { assert x[k] == b[k - |a|]; }
        }
      }
      TrimBlank(x);
    } else {
      assert a + m + b == a + (m + b);
      TrimStartPrefix(a, m + b);
      TrimEndSuffix(m, b);
    }
  }

  /** `trim` gives the empty string exactly for an all-whitespace input. */
  lemma TrimBlank(s: string)
    ensures Trim(s) == [] <==> AllWhitespace(s)
  {
    TrimStartIsSuffix(s);
    var t := TrimStart(s);
    if t == [] {
      assert s[..|s|] == s;
    } else {
      var i := |s| - |t|;
      assert t[0] == s[i] && !IsWhitespace(s[i]);
      TrimEndIsPrefix(t);
    }
  }

  /** ASCII lower-casing of one character; other characters are left as they are. */
  function LowerChar(c: char): (d: char)
    ensures 'A' <= c <= 'Z' ==> 'a' <= d <= 'z' && d as int == c as int + 32
    ensures !('A' <= c <= 'Z') ==> d == c
  {
    if 'A' <= c <= 'Z' then (c as int - 'A' as int + 'a' as int) as char else c
  }

  /** `String.prototype.toLowerCase`, restricted to the ASCII letters. */
  function ToLower(s: string): (r: string)
    ensures |r| == |s|
    ensures forall k :: 0 <= k < |s| ==> r[k] == LowerChar(s[k])
  {
    seq(|s|, k requires 0 <= k < |s| => LowerChar(s[k]))
  }

  /** Two characters that are equal, or the same ASCII letter in the two cases (code points 32 apart). */
  predicate SameUpToCase(x: char, y: char) {
    || x == y
    || ('A' <= x <= 'Z' && y as int == x as int + 32)
    || ('A' <= y <= 'Z' && x as int == y as int + 32)
  }

  /** Two characters lower-case alike exactly when they are equal up to ASCII case. */
  lemma LowerCharEqual(x: char, y: char)
    ensures LowerChar(x) == LowerChar(y) <==> SameUpToCase(x, y)
  {
  }

  /**
   * Two strings lower-case alike exactly when they have the same length
   * and agree position by position up to ASCII case: the comparison behind
   * the duplicate check of `handleAddConcept`.
   */
  lemma ToLowerEqual(a: string, b: string)
    ensures ToLower(a) == ToLower(b) <==>
      |a| == |b| && forall k :: 0 <= k < |a| ==> SameUpToCase(a[k], b[k])
  {
    if ToLower(a) == ToLower(b) {
      forall k | 0 <= k < |a| ensures SameUpToCase(a[k], b[k]) {
        assert ToLower(a)[k] == ToLower(b)[k];
        LowerCharEqual(a[k], b[k]);
      }
    }
    if |a| == |b| && forall k :: 0 <= k < |a| ==> SameUpToCase(a[k], b[k]) {
      forall k | 0 <= k < |a| ensures ToLower(a)[k] == ToLower(b)[k] {
        LowerCharEqual(a[k], b[k]);
      }
    }
  }

  /** A string in the shape `/\s+/g -> ' '` leaves behind: only plain spaces, never two in a row. */
  ghost predicate Collapsed(s: string) {
    && (forall k :: 0 <= k < |s| && IsWhitespace(s[k]) ==> s[k] == ' ')
    && (forall i, j :: 0 <= i && j == i + 1 && j < |s| ==> !(IsWhitespace(s[i]) && IsWhitespace(s[j])))
  }

  /** The characters of `s` that are not whitespace, in order. */
  function NonWhitespace(s: string): (r: string)
    ensures |r| <= |s|
  {
    if |s| == 0 then ""
    else if IsWhitespace(s[0]) then NonWhitespace(s[1..])
    else [s[0]] + NonWhitespace(s[1..])
  }

  /** `s.replace(/\s+/g, ' ')`: every maximal whitespace run becomes one space. */
  function CollapseWhitespace(s: string): (r: string)
    ensures |r| <= |s|
    ensures |r| > 0 <==> |s| > 0
    ensures |r| > 0 ==> (IsWhitespace(r[0]) <==> IsWhitespace(s[0]))
    decreases |s|
  {
    if |s| == 0 then ""
    else if IsWhitespace(s[0]) then " " + CollapseWhitespace(TrimStart(s[1..]))
    else [s[0]] + CollapseWhitespace(s[1..])
  }

  /** The collapse leaves only single plain spaces behind. */
  lemma {:induction false} CollapseIsCollapsed(s: string)
    ensures Collapsed(CollapseWhitespace(s))
    decreases |s|
  {
    if |s| > 0 {
      var rest := if IsWhitespace(s[0]) then TrimStart(s[1..]) else s[1..];
      var c := CollapseWhitespace(rest);
      CollapseIsCollapsed(rest);
      var r := CollapseWhitespace(s);
      assert r == [r[0]] + c;
      assert IsWhitespace(r[0]) ==> r[0] == ' ' && (|c| > 0 ==> !IsWhitespace(c[0]));
      forall k | 0 <= k < |r| && IsWhitespace(r[k]) ensures r[k] == ' ' {
        if k > 0 { assert r[k] == c[k - 1]; }
      }
      forall i, j | 0 <= i && j == i + 1 && j < |r| ensures !(IsWhitespace(r[i]) && IsWhitespace(r[j])) {
        if i > 0 { assert r[i] == c[i - 1] && r[j] == c[j - 1]; }
      }
    }
  }

  /** The collapse keeps every non-whitespace character, in order. */
  lemma {:induction false} CollapseKeepsNonWhitespace(s: string)
    ensures NonWhitespace(CollapseWhitespace(s)) == NonWhitespace(s)
    decreases |s|
  {
    if |s| > 0 {
      if IsWhitespace(s[0]) {
        var rest := TrimStart(s[1..]);
        CollapseKeepsNonWhitespace(rest);
        NonWhitespaceTrimStart(s[1..]);
        var c := CollapseWhitespace(rest);
        assert (" " + c)[1..] == c;
      } else {
        CollapseKeepsNonWhitespace(s[1..]);
        var c := CollapseWhitespace(s[1..]);
        assert ([s[0]] + c)[1..] == c;
      }
    }
  }

  /** Leading whitespace holds no characters `NonWhitespace` keeps. */
  lemma {:induction false} NonWhitespaceTrimStart(s: string)
    ensures NonWhitespace(TrimStart(s)) == NonWhitespace(s)
  {
    if |s| > 0 && IsWhitespace(s[0]) {
      NonWhitespaceTrimStart(s[1..]);
    }
  }

  /** A suffix of a collapsed string is collapsed. */
  lemma CollapsedTail(s: string)
    requires |s| > 0 && Collapsed(s)
    ensures Collapsed(s[1..])
  {
    var t := s[1..];
    forall k | 0 <= k < |t| && IsWhitespace(t[k]) ensures t[k] == ' ' {
      assert t[k] == s[k + 1];
    }
    forall i, j | 0 <= i && j == i + 1 && j < |t| ensures !(IsWhitespace(t[i]) && IsWhitespace(t[j])) {
      assert t[i] == s[i + 1] && t[j] == s[j + 1];
    }
  }

  /** A string already in collapsed form is a fixed point of the collapse. */
  lemma {:induction false} CollapseFixesCollapsed(s: string)
    requires Collapsed(s)
    ensures CollapseWhitespace(s) == s
  {
    if |s| > 0 {
      var t := s[1..];
      CollapsedTail(s);
      CollapseFixesCollapsed(t);
      assert s == [s[0]] + t;
      if IsWhitespace(s[0]) {
        assert s[0] == ' ';
        if |t| > 0 {
          assert !IsWhitespace(s[1]) && t[0] == s[1];
        }
        assert TrimStart(t) == t;
      }
    }
  }

  /** `s.replace(c, '')` with a one-character string pattern: only the first occurrence goes. */
  function ReplaceFirst(s: string, c: char): (r: string)
    ensures c !in s ==> r == s
    ensures c in s ==> |r| == |s| - 1
  {
    if |s| == 0 then s
    else if s[0] == c then s[1..]
    else [s[0]] + ReplaceFirst(s[1..], c)
  }

  /** `ReplaceFirst` deletes the first occurrence of `c`: the text before it has none. */
  lemma {:induction false} ReplaceFirstSplit(p: string, c: char, x: string)
    requires c !in p
    ensures ReplaceFirst(p + [c] + x, c) == p + x
  {
    var s := p + [c] + x;
    if |p| > 0 {
      assert s[0] == p[0] && s[0] != c;
      assert s[1..] == p[1..] + [c] + x;
      ReplaceFirstSplit(p[1..], c, x);
      assert ReplaceFirst(s, c) == [p[0]] + (p[1..] + x);
      HeadRegroup(p, x);
    } else {
      assert s == [c] + x;
    }
  }

  /** Putting the head of `p` back in front of its tail followed by `x` gives `p` followed by `x`. */
  lemma HeadRegroup(p: string, x: string)
    requires |p| > 0
    ensures [p[0]] + (p[1..] + x) == p + x
  {
    assert p == [p[0]] + p[1..];
  }
}

=== FILE: notes.dfy ===
/**
 * The description line of a generated track (app.js `summarizeNotes`):
 * whitespace runs collapse to one space, the ends are trimmed, and text
 * longer than 140 characters is cut to 137 characters plus an ellipsis.
 */
module Notes {
  import opened JsString

  const SummaryLimit: nat := 140
  const CutLength: nat := 137
  const Ellipsis: char := '\U{2026}'

  /** A word: a non-empty run of non-whitespace characters. */
  ghost predicate IsWord(w: string) {
    |w| > 0 && forall k :: 0 <= k < |w| ==> !IsWhitespace(w[k])
  }

  /** The leading run of non-whitespace characters of `s`. */
  function TakeWord(s: string): (w: string)
    ensures |w| <= |s| && w == s[..|w|]
    ensures |s| > 0 && !IsWhitespace(s[0]) ==> |w| > 0
  {
    if |s| > 0 && !IsWhitespace(s[0]) then [s[0]] + TakeWord(s[1..]) else ""
  }

  /** The words of `s`, in order: its maximal non-whitespace runs. */
  function Words(s: string): seq<string>
    decreases |s|
  {
    if |s| == 0 then []
    else if IsWhitespace(s[0]) then Words(s[1..])
    else
      var w := TakeWord(s);
      [w] + Words(s[|w|..])
  }

  lemma {:induction false} TakeWordIsWord(s: string)
    requires |s| > 0 && !IsWhitespace(s[0])
    ensures IsWord(TakeWord(s))
    decreases |s|
  {
    var w := TakeWord(s);
    if |s| > 1 && !IsWhitespace(s[1]) {
      TakeWordIsWord(s[1..]);
      forall k | 0 <= k < |w| ensures !IsWhitespace(w[k]) {
        if k > 0 { assert w[k] == TakeWord(s[1..])[k - 1]; }
      }
    } else {
      assert TakeWord(s[1..]) == "";
      assert w == [s[0]];
    }
  }

  /** Every element of `Words(s)` is a word. */
  lemma {:induction false} WordsAreWords(s: string)
    ensures forall k :: 0 <= k < |Words(s)| ==> IsWord(Words(s)[k])
    decreases |s|
  {
    if |s| > 0 {
      if IsWhitespace(s[0]) {
        WordsAreWords(s[1..]);
      } else {
        var w := TakeWord(s);
        TakeWordIsWord(s);
        WordsAreWords(s[|w|..]);
      }
    }
  }

  /** The words separated by single spaces. */
  function JoinWords(ws: seq<string>): string {
    if |ws| == 0 then ""
    else if |ws| == 1 then ws[0]
    else ws[0] + " " + JoinWords(ws[1..])
  }

  /** `notes.replace(/\s+/g, ' ').trim()`. */
  function Clean(notes: string): string {
    Trim(CollapseWhitespace(notes))
  }

  /** `summarizeNotes`: the cleaned notes, cut to 137 characters and an ellipsis when over 140. */
  function SummarizeNotes(notes: string): (r: string)
    ensures |r| <= SummaryLimit
  {
    var clean := Clean(notes);
    if |clean| <= SummaryLimit then clean else clean[..CutLength] + [Ellipsis]
  }

  /**
   * The suffix line 286 appends as the file is written: the three UTF-8
   * bytes of the ellipsis read back as Windows-1252 text, `â€¦`.
   */
  const WrittenSuffix: string := "\U{00E2}\U{20AC}\U{00A6}"

  /** `summarizeNotes` with the suffix exactly as line 286 spells it. */
  function SummarizeNotesAsWritten(notes: string): (r: string)
    ensures |r| <= SummaryLimit
  {
    var clean := Clean(notes);
    if |clean| <= SummaryLimit then clean else clean[..CutLength] + WrittenSuffix
  }

  // ---------------------------------------------------------------------
  // Words

  lemma {:induction false} WordsTrimStart(s: string)
    ensures Words(TrimStart(s)) == Words(s)
  {
    if |s| > 0 && IsWhitespace(s[0]) {
      WordsTrimStart(s[1..]);
    }
  }

  lemma {:induction false} NoWordsAllWhitespace(s: string)
    ensures Words(s) == [] <==> AllWhitespace(s)
    decreases |s|
  {
    if |s| > 0 {
      if IsWhitespace(s[0]) {
        NoWordsAllWhitespace(s[1..]);
        if AllWhitespace(s[1..]) {
          forall k | 0 <= k < |s| ensures IsWhitespace(s[k]) {
            if k > 0 { assert s[k] == s[1..][k - 1]; }
          }
        } else {
          var k :| 0 <= k < |s[1..]| && !IsWhitespace(s[1..][k]);
          assert s[k + 1] == s[1..][k];
        }
      }
    }
  }

  /** How a leading non-whitespace character joins the words that follow it. */
  lemma {:induction false} WordsCons(c: char, u: string)
    requires !IsWhitespace(c)
    ensures Words([c] + u) ==
      if |u| > 0 && !IsWhitespace(u[0]) then [[c] + Words(u)[0]] + Words(u)[1..]
      else [[c]] + Words(u)
  {
    var s := [c] + u;
    assert s[1..] == u;
    var w := TakeWord(s);
    assert w == [c] + TakeWord(u);
    assert s[|w|..] == u[|TakeWord(u)|..];
  }

  // ---------------------------------------------------------------------
  // Joining

  lemma {:induction false} JoinCons(c: char, ws: seq<string>)
    requires |ws| > 0
    ensures JoinWords([[c] + ws[0]] + ws[1..]) == [c] + JoinWords(ws)
  {
    var xs := [[c] + ws[0]] + ws[1..];
    assert xs[0] == [c] + ws[0] && xs[1..] == ws[1..] && |xs| == |ws|;
    if |ws| == 1 {
      assert JoinWords(xs) == xs[0];
      assert JoinWords(ws) == ws[0];
    } else {
      var tail := JoinWords(ws[1..]);
      assert JoinWords(xs) == xs[0] + " " + tail;
      assert JoinWords(ws) == ws[0] + " " + tail;
      assert ([c] + ws[0]) + " " + tail == [c] + (ws[0] + " " + tail);
    }
  }

  lemma {:induction false} JoinSingle(c: char, ws: seq<string>)
    ensures JoinWords([[c]] + ws) == [c] + (if ws == [] then "" else " " + JoinWords(ws))
  {
    var xs := [[c]] + ws;
    assert xs[1..] == ws;
  }

  /** Joined words are in collapsed form and start and end with a non-whitespace character. */
  lemma {:induction false} JoinShape(ws: seq<string>)
    requires forall k :: 0 <= k < |ws| ==> IsWord(ws[k])
    ensures var j := JoinWords(ws);
      && (j == [] <==> ws == [])
      && Collapsed(j)
      && (|j| > 0 ==> !IsWhitespace(j[0]) && !IsWhitespace(j[|j| - 1]))
  {
    if |ws| == 1 {
      assert IsWord(ws[0]);
    } else if |ws| > 1 {
      var w := ws[0];
      assert IsWord(w);
      JoinShape(ws[1..]);
      var rest := JoinWords(ws[1..]);
      assert Collapsed(w);
      CollapsedConcat(" ", rest);
      CollapsedConcat(w, " " + rest);
      assert JoinWords(ws) == w + (" " + rest);
    }
  }

  lemma {:induction false} CollapsedConcat(x: string, y: string)
    requires Collapsed(x) && Collapsed(y)
    requires |x| > 0 && |y| > 0 ==> !(IsWhitespace(x[|x| - 1]) && IsWhitespace(y[0]))
    ensures Collapsed(x + y)
  {
    var z := x + y;
    forall k | 0 <= k < |z| && IsWhitespace(z[k]) ensures z[k] == ' ' {
      if k >= |x| { assert z[k] == y[k - |x|]; }
    }
    forall i, j | 0 <= i && j == i + 1 && j < |z| ensures !(IsWhitespace(z[i]) && IsWhitespace(z[j])) {
      if i >= |x| { assert z[i] == y[i - |x|] && z[j] == y[j - |x|]; }
      else if j == |x| { assert z[i] == x[|x| - 1] && z[j] == y[0]; }
    }
  }

  // ---------------------------------------------------------------------
  // The collapse in terms of words

  function LeadingSpace(s: string): string {
    if |s| > 0 && IsWhitespace(s[0]) then " " else ""
  }

  function TrailingSpace(s: string): string {
    if Words(s) != [] && IsWhitespace(s[|s| - 1]) then " " else ""
  }

  /** The collapse is the words joined by single spaces, with one space kept for whitespace at either end. */
  lemma {:induction false} CollapseShape(s: string)
    ensures CollapseWhitespace(s) == LeadingSpace(s) + JoinWords(Words(s)) + TrailingSpace(s)
    decreases |s|
  {
    if |s| == 0 {
    } else if IsWhitespace(s[0]) {
      var t := TrimStart(s[1..]);
      CollapseShape(t);
      CollapseShapeSpaceStep(s);
    } else {
      CollapseShape(s[1..]);
      CollapseShapeWordStep(s);
    }
  }

  lemma CollapseShapeSpaceStep(s: string)
    requires |s| > 0 && IsWhitespace(s[0])
    requires var t := TrimStart(s[1..]);
      CollapseWhitespace(t) == LeadingSpace(t) + JoinWords(Words(t)) + TrailingSpace(t)
    ensures CollapseWhitespace(s) == LeadingSpace(s) + JoinWords(Words(s)) + TrailingSpace(s)
  {
    var t := TrimStart(s[1..]);
    WordsTrimStart(s[1..]);
    TrimStartKeepsLast(s);
    TrailingSpaceOfSuffix(s, t);
    SpacePrefixed(s, t, JoinWords(Words(s)), TrailingSpace(s));
  }

  lemma SpacePrefixed(s: string, t: string, j: string, tail: string)
    requires |s| > 0 && IsWhitespace(s[0])
    requires t == TrimStart(s[1..])
    requires CollapseWhitespace(t) == LeadingSpace(t) + j + tail
    ensures CollapseWhitespace(s) == LeadingSpace(s) + j + tail
  {
    CollapseSpaceHead(s);
    assert LeadingSpace(t) == "" && LeadingSpace(s) == " ";
    SpaceRegroup(CollapseWhitespace(s), CollapseWhitespace(t), LeadingSpace(s), j, tail);
  }

  /** A space in front of a concatenation with an empty leading part is a leading space of one. */
  lemma SpaceRegroup(whole: string, rest: string, lead: string, x: string, y: string)
    requires whole == " " + rest && rest == "" + x + y && lead == " "
    ensures whole == lead + x + y
  {
  }

  lemma CollapseSpaceHead(s: string)
    requires |s| > 0 && IsWhitespace(s[0])
    ensures CollapseWhitespace(s) == " " + CollapseWhitespace(TrimStart(s[1..]))
  {
  }

  lemma CollapseWordHead(s: string)
    requires |s| > 0 && !IsWhitespace(s[0])
    ensures CollapseWhitespace(s) == [s[0]] + CollapseWhitespace(s[1..])
  {
  }

  /** After a leading whitespace character, what `TrimStart` leaves still ends where `s` ends. */
  lemma TrimStartKeepsLast(s: string)
    requires |s| > 0 && IsWhitespace(s[0])
    ensures var t := TrimStart(s[1..]); |t| > 0 ==> t[|t| - 1] == s[|s| - 1]
    ensures Words(s) != [] ==> |TrimStart(s[1..])| > 0
  {
    var u := s[1..];
    var t := TrimStart(u);
    WordsTrimStart(u);
    TrimStartIsSuffix(u);
    if |t| > 0 {
      assert t == u[|u| - |t|..];
      assert t[|t| - 1] == u[|u| - 1] == s[|s| - 1];
    }
  }

  lemma TrailingSpaceOfSuffix(s: string, t: string)
    requires Words(t) == Words(s)
    requires |t| > 0 && |s| > 0 ==> t[|t| - 1] == s[|s| - 1]
    requires Words(s) != [] ==> |t| > 0
    ensures TrailingSpace(t) == TrailingSpace(s)
  {
  }

  lemma CollapseShapeWordStep(s: string)
    requires |s| > 0 && !IsWhitespace(s[0])
    requires var u := s[1..];
      CollapseWhitespace(u) == LeadingSpace(u) + JoinWords(Words(u)) + TrailingSpace(u)
    ensures CollapseWhitespace(s) == LeadingSpace(s) + JoinWords(Words(s)) + TrailingSpace(s)
  {
    if |s| == 1 {
      WordAlone(s);
    } else if IsWhitespace(s[1]) {
      WordThenSpace(s);
    } else {
      WordThenWord(s);
    }
  }

  lemma WordAlone(s: string)
    requires |s| == 1 && !IsWhitespace(s[0])
    ensures CollapseWhitespace(s) == LeadingSpace(s) + JoinWords(Words(s)) + TrailingSpace(s)
  {
    var u := s[1..];
    assert s == [s[0]] + u;
    WordsCons(s[0], u);
    assert Words(s) == [[s[0]]];
    CollapseWordHead(s);
  }

  lemma WordThenSpace(s: string)
    requires |s| > 1 && !IsWhitespace(s[0]) && IsWhitespace(s[1])
    requires var u := s[1..];
      CollapseWhitespace(u) == LeadingSpace(u) + JoinWords(Words(u)) + TrailingSpace(u)
    ensures CollapseWhitespace(s) == LeadingSpace(s) + JoinWords(Words(s)) + TrailingSpace(s)
  {
    if Words(s[1..]) == [] {
      WordThenBlanks(s);
    } else {
      WordThenSpaceThenWord(s);
    }
  }

  /** `WordThenSpace` when only whitespace follows the first character. */
  lemma WordThenBlanks(s: string)
    requires |s| > 1 && !IsWhitespace(s[0]) && IsWhitespace(s[1]) && Words(s[1..]) == []
    requires var u := s[1..];
      CollapseWhitespace(u) == LeadingSpace(u) + JoinWords(Words(u)) + TrailingSpace(u)
    ensures CollapseWhitespace(s) == LeadingSpace(s) + JoinWords(Words(s)) + TrailingSpace(s)
  {
    var c := s[0];
    var u := s[1..];
    assert s == [c] + u;
    WordsCons(c, u);
    JoinSingle(c, []);
    CollapseWordHead(s);
    NoWordsAllWhitespace(u);
    assert s[|s| - 1] == u[|u| - 1];
    assert IsWhitespace(u[|u| - 1]);
    assert CollapseWhitespace(u) == " " + "" + "";
    Assemble(c, CollapseWhitespace(s), CollapseWhitespace(u), LeadingSpace(s), JoinWords(Words(s)),
             TrailingSpace(s), "", " ");
  }

  /** `WordThenSpace` when a further word follows the whitespace. */
  lemma WordThenSpaceThenWord(s: string)
    requires |s| > 1 && !IsWhitespace(s[0]) && IsWhitespace(s[1]) && Words(s[1..]) != []
    requires var u := s[1..];
      CollapseWhitespace(u) == LeadingSpace(u) + JoinWords(Words(u)) + TrailingSpace(u)
    ensures CollapseWhitespace(s) == LeadingSpace(s) + JoinWords(Words(s)) + TrailingSpace(s)
  {
    var c := s[0];
    var u := s[1..];
    assert s == [c] + u;
    WordsCons(c, u);
    var w := Words(u);
    JoinSingle(c, w);
    CollapseWordHead(s);
    assert s[|s| - 1] == u[|u| - 1];
    Assemble(c, CollapseWhitespace(s), CollapseWhitespace(u), LeadingSpace(s), JoinWords(Words(s)),
             TrailingSpace(s), " " + JoinWords(w), TrailingSpace(u));
  }

  lemma WordThenWord(s: string)
    requires |s| > 1 && !IsWhitespace(s[0]) && !IsWhitespace(s[1])
    requires var u := s[1..];
      CollapseWhitespace(u) == LeadingSpace(u) + JoinWords(Words(u)) + TrailingSpace(u)
    ensures CollapseWhitespace(s) == LeadingSpace(s) + JoinWords(Words(s)) + TrailingSpace(s)
  {
    var c := s[0];
    var u := s[1..];
    assert s == [c] + u;
    WordsCons(c, u);
    var w := Words(u);
    NoWordsAllWhitespace(u);
    assert w != [];
    JoinCons(c, w);
    CollapseWordHead(s);
    assert s[|s| - 1] == u[|u| - 1];
    EmptyLead(LeadingSpace(u), JoinWords(w), TrailingSpace(u));
    Assemble(c, CollapseWhitespace(s), CollapseWhitespace(u), LeadingSpace(s), JoinWords(Words(s)),
             TrailingSpace(s), JoinWords(w), TrailingSpace(u));
  }

  /** An empty leading part drops out of a concatenation. */
  lemma EmptyLead(lead: string, x: string, y: string)
    requires lead == ""
    ensures lead + x + y == x + y
  {
  }

  /**
   * The last step of the word cases of `CollapseShape`: a collapse that
   * starts with the word character `c` is that character's word joined on,
   * between no leading space and the trailing space.
   */
  lemma Assemble(c: char, whole: string, rest: string, lead: string, join: string, trail: string, x: string, y: string)
    requires whole == [c] + rest && rest == x + y
    requires lead == "" && join == [c] + x && trail == y
    ensures whole == lead + join + trail
  {
    assert [c] + (x + y) == ([c] + x) + y;
  }

  /** The cleaned notes are exactly the words of the notes joined by single spaces. */
  lemma {:induction false} CleanIsJoinedWords(notes: string)
    ensures Clean(notes) == JoinWords(Words(notes))
  {
    var j := JoinWords(Words(notes));
    CollapseShape(notes);
    WordsAreWords(notes);
    JoinShape(Words(notes));
    if Words(notes) == [] {
      assert TrailingSpace(notes) == "";
    }
    TrimFrame(LeadingSpace(notes), j, TrailingSpace(notes));
  }

  // ---------------------------------------------------------------------
  // The summary

  /**
   * The summary is the joined words when they fit in 140 characters, and
   * otherwise their first 137 characters followed by the ellipsis.
   */
  lemma {:induction false} SummarizeNotesSpec(notes: string)
    ensures var j := JoinWords(Words(notes));
      && (|j| <= SummaryLimit ==> SummarizeNotes(notes) == j)
      && (|j| > SummaryLimit ==>
            SummarizeNotes(notes) == j[..CutLength] + [Ellipsis] && |SummarizeNotes(notes)| == CutLength + 1)
  {
    CleanIsJoinedWords(notes);
  }

  /** A string in collapsed form with no whitespace at either end is its own cleaned form. */
  lemma CleanFixesNormal(x: string)
    requires Collapsed(x)
    requires |x| > 0 ==> !IsWhitespace(x[0]) && !IsWhitespace(x[|x| - 1])
    ensures Clean(x) == x
  {
    CollapseFixesCollapsed(x);
    TrimFrame("", x, "");
    assert "" + x + "" == x;
  }

  /** A summary is in collapsed form and starts and ends with a non-whitespace character. */
  lemma SummaryIsNormal(notes: string)
    ensures var r := SummarizeNotes(notes);
      Collapsed(r) && (|r| > 0 ==> !IsWhitespace(r[0]) && !IsWhitespace(r[|r| - 1]))
  {
    var j := JoinWords(Words(notes));
    CleanIsJoinedWords(notes);
    WordsAreWords(notes);
    JoinShape(Words(notes));
    if |j| > SummaryLimit {
      var p := j[..CutLength];
      PrefixCollapsed(j, CutLength);
      assert !IsWhitespace(Ellipsis);
      CollapsedConcat(p, [Ellipsis]);
      var r := p + [Ellipsis];
      assert r[0] == j[0] && r[|r| - 1] == Ellipsis;
    }
  }

  lemma PrefixCollapsed(x: string, n: nat)
    requires Collapsed(x) && n <= |x|
    ensures Collapsed(x[..n])
  {
    var p := x[..n];
    forall i, j | 0 <= i && j == i + 1 && j < |p| ensures !(IsWhitespace(p[i]) && IsWhitespace(p[j])) {
      assert p[i] == x[i] && p[j] == x[j];
    }
  }

  /** A summary is already clean and short, so summarising it again changes nothing. */
  lemma SummarizeIdempotent(notes: string)
    ensures SummarizeNotes(SummarizeNotes(notes)) == SummarizeNotes(notes)
  {
    var r := SummarizeNotes(notes);
    SummaryIsNormal(notes);
    CleanFixesNormal(r);
  }

  /**
   * As written, a cut summary ends in the three characters `â€¦` instead of
   * the ellipsis, and so differs from the intended summary.
   */
  lemma AsWrittenEndsInMojibake(notes: string)
    requires |JoinWords(Words(notes))| > SummaryLimit
    ensures var r := SummarizeNotesAsWritten(notes);
      && |r| == SummaryLimit && r[CutLength..] == WrittenSuffix
      && Ellipsis !in r[CutLength..]
      && r != SummarizeNotes(notes)
  {
    CleanIsJoinedWords(notes);
    var r := SummarizeNotesAsWritten(notes);
    assert |SummarizeNotes(notes)| == CutLength + 1;
  }
}

=== FILE: option_panel.dfy ===
/**
 * The capsule selection panel of script.js: one music ambience and one
 * study topic are toggled by clicking option cards, the cards mark the
 * current choice, the summary and the launch button follow the choice,
 * and launching announces the pairing.
 */
module OptionPanel {
  import opened Wrappers

  datatype Music = Music(title: string, vibe: string, summary: string)
  datatype Topic = Topic(title: string, hook: string)

  /** `musicDetails` (lines 12-34). */
  const MusicDetails: map<string, Music> := map[
    "focus-lofi" := Music("Focus Lofi", "Muted beats & analog layers",
      "Subtle drums, warm vinyl textures, and gentle chords designed to anchor every concept."),
    "boost-pop" := Music("Boost Pop", "Bright hooks & crisp drums",
      "A vibrant pulse that keeps your recall fast-paced without sacrificing clarity."),
    "deep-ambient" := Music("Deep Ambient", "Immersive pads & cosmic grain",
      "Evolving soundscapes that keep your mind breathing while sustaining deep focus."),
    "neo-jazz" := Music("Neo Jazz", "Modern improv & fluid grooves",
      "Sophisticated harmonies and elastic basslines for fluid, elegant study sessions.")]

  /** `topicDetails` (lines 36-53). */
  const TopicDetails: map<string, Topic> := map[
    "mathematiques" := Topic("Mathematics", "Visual logic, guided proofs, and spaced repetition for every core idea."),
    "histoire" := Topic("History", "Immersive narration, interactive timelines, and focus on pivotal characters."),
    "sciences" := Topic("Sciences", "Simulated experiments, dynamic diagrams, and concise synthesis sheets."),
    "langues" := Topic("Languages", "Active recall loops, assisted pronunciation, and contextual vocabulary.")]

  /**
   * The properties a plain object literal inherits from `Object.prototype`:
   * looking one of them up finds a value whose `title`, `vibe`, `summary`
   * and `hook` are all undefined.
   */
  const InheritedNames: set<string> := {
    "constructor", "__defineGetter__", "__defineSetter__", "hasOwnProperty", "__lookupGetter__",
    "__lookupSetter__", "isPrototypeOf", "propertyIsEnumerable", "toString", "valueOf", "__proto__",
    "toLocaleString"}

  /** What `String(undefined)` renders in a template literal. */
  const Undefined := "undefined"

  const Times := "×"
  const Dot := "·"

  /** The current choice: `selectedMusic` and `selectedTopic`, `None` for null. */
  datatype Selection = Selection(music: Option<string>, topic: Option<string>)

  /** A string selection is truthy when it is present and non-empty. */
  predicate Truthy(o: Option<string>) {
    o.Some? && o.value != ""
  }

  /** An option card: its `data-type` and `data-id`. */
  datatype OptionCard = OptionCard(kind: string, id: string)

  /** `selected === id ? null : id`. */
  function Toggle(current: Option<string>, id: string): (r: Option<string>)
    ensures r == Some(id) <==> current != Some(id)
    ensures r.None? <==> current == Some(id)
  {
    if current == Some(id) then None else Some(id)
  }

  /** Lines 89-98: a music card toggles the music choice, a topic card the topic choice. */
  function Click(sel: Selection, card: OptionCard): (r: Selection)
    ensures card.kind == "music" ==> r.music == Toggle(sel.music, card.id)
    ensures card.kind == "topic" ==> r.topic == Toggle(sel.topic, card.id)
    ensures card.kind != "music" ==> r.music == sel.music
    ensures card.kind != "topic" ==> r.topic == sel.topic
  {
    Selection(
      if card.kind == "music" then Toggle(sel.music, card.id) else sel.music,
      if card.kind == "topic" then Toggle(sel.topic, card.id) else sel.topic)
  }

  /** Line 107: whether a card carries the `is-selected` class. */
  predicate IsMarked(card: OptionCard, sel: Selection) {
    (card.kind == "music" && Some(card.id) == sel.music) || (card.kind == "topic" && Some(card.id) == sel.topic)
  }

  /** `updateSelections`: the mark of every card. */
  function UpdateSelections(cards: seq<OptionCard>, sel: Selection): (r: seq<bool>)
    ensures |r| == |cards|
    ensures forall k :: 0 <= k < |cards| ==> r[k] == IsMarked(cards[k], sel)
  {
    seq(|cards|, k requires 0 <= k < |cards| => IsMarked(cards[k], sel))
  }

  /** What `details[id]` finds: an own entry, an inherited property, or nothing. */
  datatype Entry<T> = Own(value: T) | Inherited | Missing

  function LookupMusic(id: string): Entry<Music> {
    if id in MusicDetails then Own(MusicDetails[id]) else if id in InheritedNames then Inherited else Missing
  }

  function LookupTopic(id: string): Entry<Topic> {
    if id in TopicDetails then Own(TopicDetails[id]) else if id in InheritedNames then Inherited else Missing
  }

  /** The fields of a found music entry as template literals render them. */
  function MusicFields(e: Entry<Music>): Music {
    if e.Own? then e.value else Music(Undefined, Undefined, Undefined)
  }

  function TopicFields(e: Entry<Topic>): Topic {
    if e.Own? then e.value else Topic(Undefined, Undefined)
  }

  /** `${music.title} × ${topic.title}`, the headline of a complete choice. */
  function Headline(music: Music, topic: Topic): string {
    music.title + " " + Times + " " + topic.title
  }

  /** The summary block: title, description, the meta lines, whether the meta block is hidden, whether launch is disabled. */
  datatype SummaryView = SummaryView(
    title: string,
    description: string,
    musicLine: string,
    topicLine: string,
    metaHidden: bool,
    launchDisabled: bool)

  const PartialDescription := "One more step: pair a music ambience with a study topic to craft your capsule."
  const EmptyTitle := "Pick an ambience and a topic"
  const EmptyDescription := "Your tailored capsule will appear here, ready to deploy."

  /** `${details[id]?.title}` for the partial summary. */
  function MusicTitleOrUndefined(id: string): string {
    match LookupMusic(id)
    case Own(m) => m.title
    case _ => Undefined
  }

  function TopicTitleOrUndefined(id: string): string {
    match LookupTopic(id)
    case Own(t) => t.title
    case _ => Undefined
  }

  /**
   * `updateSummary` (lines 112-137). `None` is the `TypeError` thrown when
   * both are chosen and one id names no entry at all; the meta lines keep
   * their earlier text outside the full branch. The topic line is assigned
   * `topic.title` directly, not through a template literal, so an inherited
   * entry's missing title (`undefined`) is stored as the empty string.
   */
  function UpdateSummary(v: SummaryView, sel: Selection): (r: Option<SummaryView>)
    ensures r.Some? ==> (r.value.launchDisabled <==> !(Truthy(sel.music) && Truthy(sel.topic)))
    ensures r.Some? ==> r.value.metaHidden == r.value.launchDisabled
    ensures r.None? ==> Truthy(sel.music) && Truthy(sel.topic)
  {
    if Truthy(sel.music) && Truthy(sel.topic) then
      var m, t := LookupMusic(sel.music.value), LookupTopic(sel.topic.value);
      if m.Missing? || t.Missing? then None
      else
        var music, topic := MusicFields(m), TopicFields(t);
        Some(SummaryView(
          Headline(music, topic),
          music.summary + " " + topic.hook,
          music.title + " " + Dot + " " + music.vibe,
          if t.Own? then t.value.title else "",
          false,
          false))
    else if Truthy(sel.music) || Truthy(sel.topic) then
      var music := if Truthy(sel.music) then MusicTitleOrUndefined(sel.music.value) else "Ambience";
      var topic := if Truthy(sel.topic) then TopicTitleOrUndefined(sel.topic.value) else "Topic";
      Some(v.(title := "Continue with " + music + " and " + topic, description := PartialDescription,
              metaHidden := true, launchDisabled := true))
    else
      Some(v.(title := EmptyTitle, description := EmptyDescription, metaHidden := true, launchDisabled := true))
  }

  /** The panel: the choice, the cards with their marks, and the summary block. */
  datatype Panel = Panel(selection: Selection, cards: seq<OptionCard>, marks: seq<bool>, view: SummaryView)

  /** The outcome of a handler: the panel it leaves, and whether it ended in a thrown error. */
  datatype Outcome = Outcome(panel: Panel, threw: bool)

  /** `handleOptionClick` for the card at `index`: toggle, remark the cards, refresh the summary. */
  function HandleOptionClick(p: Panel, index: nat): (r: Outcome)
    requires index < |p.cards|
    ensures r.panel.selection == Click(p.selection, p.cards[index])
    ensures r.panel.cards == p.cards && r.panel.marks == UpdateSelections(p.cards, r.panel.selection)
    ensures r.threw <==> UpdateSummary(p.view, r.panel.selection).None?
    ensures r.threw ==> r.panel.view == p.view
    ensures !r.threw ==> Some(r.panel.view) == UpdateSummary(p.view, r.panel.selection)
  {
    var sel := Click(p.selection, p.cards[index]);
    var marked := p.(selection := sel, marks := UpdateSelections(p.cards, sel));
    match UpdateSummary(p.view, sel)
    case Some(v) => Outcome(marked.(view := v), false)
    case None => Outcome(marked, true)
  }

  /** What the launch button does: nothing, an alert with a message, or a thrown error. */
  datatype Launch = Ignored | Alert(message: string) | LaunchThrew

  const ReadyLine := "Your capsule is ready! Export it or launch a Live session when you are set."

  /** The launch click handler (lines 181-200). */
  function LaunchClick(sel: Selection): (r: Launch)
    ensures !(Truthy(sel.music) && Truthy(sel.topic)) ==> r == Ignored
  {
    if !(Truthy(sel.music) && Truthy(sel.topic)) then Ignored
    else
      var m, t := LookupMusic(sel.music.value), LookupTopic(sel.topic.value);
      if m.Missing? || t.Missing? then LaunchThrew
      else
        var music, topic := MusicFields(m), TopicFields(t);
        Alert(Headline(music, topic) + ("\n\n" + music.summary + "\n" + topic.hook + "\n\n" + ReadyLine))
  }

  // ---------------------------------------------------------------------
  // Properties

  /** Clicking the same card twice deselects its kind, or restores it when it was the choice. */
  lemma ClickTwice(sel: Selection, card: OptionCard)
    ensures var r := Click(Click(sel, card), card);
      && (card.kind == "music" ==> r.music == (if sel.music == Some(card.id) then sel.music else None))
      && (card.kind == "topic" ==> r.topic == (if sel.topic == Some(card.id) then sel.topic else None))
  {
  }

  /**
   * After a click, at most one card of each kind with the chosen id is
   * relevant: a music card is marked exactly when its id is the chosen
   * music, and a card of another kind is never marked.
   */
  lemma MarksFollowChoice(p: Panel, index: nat, k: nat)
    requires index < |p.cards| && k < |p.cards|
    ensures var r := HandleOptionClick(p, index).panel;
      && (p.cards[k].kind == "music" ==> (r.marks[k] <==> r.selection.music == Some(p.cards[k].id)))
      && (p.cards[k].kind == "topic" ==> (r.marks[k] <==> r.selection.topic == Some(p.cards[k].id)))
      && (p.cards[k].kind != "music" && p.cards[k].kind != "topic" ==> !r.marks[k])
  {
  }

  /** Clicking an unmarked music card marks it; clicking it again unmarks it. */
  lemma ClickMarksCard(p: Panel, index: nat)
    requires index < |p.cards| && p.cards[index].kind == "music"
    ensures var r := HandleOptionClick(p, index).panel;
      r.marks[index] <==> p.selection.music != Some(p.cards[index].id)
  {
  }

  /** With catalogue ids on both sides the summary never throws and names the pair. */
  lemma KnownPairSummary(v: SummaryView, m: string, t: string)
    requires m in MusicDetails && t in TopicDetails
    ensures var r := UpdateSummary(v, Selection(Some(m), Some(t)));
      && r.Some? && !r.value.launchDisabled && !r.value.metaHidden
      && r.value.title == MusicDetails[m].title + " × " + TopicDetails[t].title
      && r.value.topicLine == TopicDetails[t].title
  {
    assert m != "" && t != "";
  }

  /**
   * A known music with a topic id outside the catalogue: an inherited
   * property name renders its missing title as `undefined` in the headline
   * and as the empty string in the topic line; any other id throws.
   */
  lemma UnknownTopicSummary(v: SummaryView, m: string, t: string)
    requires m in MusicDetails && t != "" && t !in TopicDetails
    ensures var r := UpdateSummary(v, Selection(Some(m), Some(t)));
      && (t in InheritedNames ==>
            r.Some? && r.value.topicLine == "" && r.value.title == MusicDetails[m].title + " × undefined")
      && (t !in InheritedNames ==> r.None?)
  {
    assert m != "";
    assert LookupMusic(m) == Own(MusicDetails[m]);
    assert LookupTopic(t) == if t in InheritedNames then Inherited else Missing;
  }

  /** A partial choice names the missing side by `Ambience` or `Topic`. */
  lemma PartialTitle(v: SummaryView, sel: Selection)
    requires Truthy(sel.music) != Truthy(sel.topic)
    ensures var r := UpdateSummary(v, sel);
      && r.Some? && r.value.launchDisabled && r.value.metaHidden
      && (!Truthy(sel.music) ==> r.value.title == "Continue with Ambience and " + TopicTitleOrUndefined(sel.topic.value))
      && (!Truthy(sel.topic) ==> r.value.title == "Continue with " + MusicTitleOrUndefined(sel.music.value) + " and Topic")
  {
  }

  /** The launch handler announces exactly the pair the summary shows. */
  lemma LaunchMatchesSummary(v: SummaryView, sel: Selection)
    requires UpdateSummary(v, sel).Some?
    ensures var s := UpdateSummary(v, sel).value;
      && (LaunchClick(sel).Alert? <==> !s.launchDisabled)
      && (LaunchClick(sel).Alert? ==> LaunchClick(sel).message[..|s.title|] == s.title)
  {
    if LaunchClick(sel).Alert? {
      var m, t := LookupMusic(sel.music.value), LookupTopic(sel.topic.value);
      var h := Headline(MusicFields(m), TopicFields(t));
      PrefixOfConcat(h, LaunchClick(sel).message[|h|..]);
    }
  }

  lemma PrefixOfConcat(a: string, b: string)
    ensures (a + b)[..|a|] == a
  {
  }
}

=== FILE: reveal_order.dfy ===
/**
 * Which characters of a scrambled text are shown in clear
 * (decrypted-text.js `getNextIndex` and the reveal count of `updateText`).
 * In sequential mode one index per tick is added to a set, in the order
 * the direction dictates; otherwise a prefix grows with the iteration.
 */
module RevealOrder {
  import opened Wrappers

  /** `data-decrypt-direction`, lower-cased: `end`, `center`, and anything else reads as `start`. */
  datatype Direction = Start | End | Center

  /** The integers `a`, ..., `b - 1`. */
  function Range(a: int, b: int): set<int>
    decreases b - a
  {
    if a >= b then {} else Range(a, b - 1) + {b - 1}
  }

  /** The first index in `from`, ..., `len - 1` that is not in `revealed` (the loop of lines 110-112). */
  function FirstMissing(revealed: set<int>, from: int, len: int): (r: Option<int>)
    ensures r.Some? ==> from <= r.value < len && r.value !in revealed
    ensures r.Some? ==> forall j :: from <= j < r.value ==> j in revealed
    ensures r.None? ==> forall j :: from <= j < len ==> j in revealed
    decreases len - from
  {
    if from >= len then None
    else if from !in revealed then Some(from)
    else FirstMissing(revealed, from + 1, len)
  }

  /** The alternating center candidate: right of the middle after an even count, left of it after an odd one. */
  function CenterCandidate(len: nat, size: nat): int {
    var middle := len / 2;
    var offset := size / 2;
    if size % 2 == 0 then middle + offset else middle - offset - 1
  }

  /**
   * `getNextIndex`. `start` and `end` count from their side by the number
   * already revealed, without any range check; `center` takes the
   * alternating candidate when it is free and in range, and otherwise the
   * smallest free index, or nothing when every index is revealed.
   */
  function NextIndex(dir: Direction, len: nat, revealed: set<int>): (r: Option<int>)
    ensures dir != Center ==> r.Some?
    ensures dir == Center && r.Some? ==> 0 <= r.value < len && r.value !in revealed
    ensures dir == Center ==> (r.None? <==> forall j :: 0 <= j < len ==> j in revealed)
  {
    match dir
    case End => Some(len - 1 - |revealed|)
    case Center =>
      var candidate := CenterCandidate(len, |revealed|);
      if candidate !in revealed && 0 <= candidate < len then Some(candidate)
      else FirstMissing(revealed, 0, len)
    case Start => Some(|revealed|)
  }

  /** `revealNextSequential`: add the next index, if there is one. */
  function RevealNext(dir: Direction, len: nat, revealed: set<int>): (r: set<int>)
    ensures revealed <= r && |r| <= |revealed| + 1
  {
    match NextIndex(dir, len, revealed)
    case Some(i) => revealed + {i}
    case None => revealed
  }

  /** The revealed set after `k` sequential ticks from nothing revealed. */
  function RevealedAfter(dir: Direction, len: nat, k: nat): set<int> {
    if k == 0 then {} else RevealNext(dir, len, RevealedAfter(dir, len, k - 1))
  }

  /**
   * The reveal count of non-sequential mode:
   * `min(len, floor(iteration / maxIterations * len))`, read as the number
   * of leading positions `i < revealCount` shows. A zero maximum divides
   * by zero: infinity once the iteration is positive, NaN (nothing shown)
   * at iteration 0; a negative maximum shows nothing.
   */
  function RevealCount(iteration: nat, maxIterations: int, len: nat): (r: nat)
    ensures r <= len
  {
    if maxIterations > 0 then
      var q := iteration * len / maxIterations;
      if q < len then q else len
    else if maxIterations == 0 && iteration > 0 then len
    else 0
  }

  // ---------------------------------------------------------------------
  // Properties of the sequential order

  lemma {:induction false} RangeCard(a: int, b: int)
    requires a <= b
    ensures |Range(a, b)| == b - a
    decreases b - a
  {
    if a < b {
      RangeCard(a, b - 1);
      RangeMembers(a, b - 1, b - 1);
    }
  }

  lemma RangeGrowsRight(a: int, b: int)
    requires a <= b
    ensures Range(a, b + 1) == Range(a, b) + {b}
  {
  }

  lemma {:induction false} RangeMembers(a: int, b: int, i: int)
    ensures i in Range(a, b) <==> a <= i < b
    decreases b - a
  {
    if a < b {
      RangeMembers(a, b - 1, i);
    }
  }

  lemma {:induction false} RangeGrowsLeft(a: int, b: int)
    requires a <= b
    ensures Range(a - 1, b) == Range(a, b) + {a - 1}
    decreases b - a
  {
    if a < b {
      RangeGrowsLeft(a, b - 1);
    } else {
      assert Range(a - 1, b) == Range(a - 1, a - 1) + {a - 1};
    }
  }

  /** One sequential tick adds exactly the next index to the set. */
  lemma RevealStep(dir: Direction, len: nat, prev: set<int>, i: int)
    requires NextIndex(dir, len, prev) == Some(i)
    ensures RevealNext(dir, len, prev) == prev + {i}
  {
  }

  lemma StartStep(len: nat, prev: set<int>, n: nat)
    requires prev == Range(0, n) && |prev| == n
    ensures RevealNext(Start, len, prev) == Range(0, n + 1)
  {
    RevealStep(Start, len, prev, n);
    RangeGrowsRight(0, n);
  }

  lemma EndStep(len: nat, prev: set<int>, lo: int)
    requires lo <= len && prev == Range(lo, len) && |prev| == len - lo
    ensures RevealNext(End, len, prev) == Range(lo - 1, len)
  {
    assert NextIndex(End, len, prev) == Some(lo - 1);
    RevealStep(End, len, prev, lo - 1);
    RangeGrowsLeft(lo, len);
  }

  /** One more tick reveals the next index after the set of the previous ticks. */
  lemma RevealedAfterUnfold(dir: Direction, len: nat, k: nat)
    ensures RevealedAfter(dir, len, k + 1) == RevealNext(dir, len, RevealedAfter(dir, len, k))
  {
  }

  /** In the `start` direction the first `k` ticks reveal exactly 0, ..., k - 1. */
  lemma {:induction false} StartOrder(len: nat, k: nat)
    ensures RevealedAfter(Start, len, k) == Range(0, k)
  {
    if k > 0 {
      StartOrder(len, k - 1);
      RangeCard(0, k - 1);
      StartStep(len, RevealedAfter(Start, len, k - 1), k - 1);
    }
  }

  /** In the `end` direction the first `k` ticks reveal exactly len - k, ..., len - 1. */
  lemma {:induction false} EndOrder(len: nat, k: nat)
    ensures RevealedAfter(End, len, k) == Range(len - k, len)
  {
    if k > 0 {
      EndOrder(len, k - 1);
      RangeCard(len - (k - 1), len);
      EndStep(len, RevealedAfter(End, len, k - 1), len - (k - 1));
    }
  }

  /** The window the `center` direction has revealed after `k` ticks. */
  function CenterLow(len: nat, k: nat): int { len / 2 - k / 2 }
  function CenterHigh(len: nat, k: nat): int { len / 2 + (k + 1) / 2 }

  /** The next candidate after a `k`-element window, `k < len`, lies in range, just outside the window. */
  lemma CenterCandidateOutside(len: nat, k: nat)
    requires k < len
    ensures var c := CenterCandidate(len, k);
      && 0 <= c < len
      && CenterLow(len, k) <= CenterHigh(len, k)
      && CenterHigh(len, k) - CenterLow(len, k) == k
      && (k % 2 == 0 ==> c == CenterHigh(len, k) && CenterLow(len, k + 1) == CenterLow(len, k)
                         && CenterHigh(len, k + 1) == c + 1)
      && (k % 2 == 1 ==> c == CenterLow(len, k) - 1 && CenterLow(len, k + 1) == c
                         && CenterHigh(len, k + 1) == CenterHigh(len, k))
  {
  }

  lemma CenterStep(len: nat, prev: set<int>, k: nat)
    requires k < len
    requires prev == Range(CenterLow(len, k), CenterHigh(len, k))
    ensures RevealNext(Center, len, prev) == Range(CenterLow(len, k + 1), CenterHigh(len, k + 1))
  {
    var lo, hi := CenterLow(len, k), CenterHigh(len, k);
    var c := CenterCandidate(len, k);
    CenterCandidateOutside(len, k);
    RangeCard(lo, hi);
    RangeMembers(lo, hi, c);
    assert NextIndex(Center, len, prev) == Some(c);
    RevealStep(Center, len, prev, c);
    var next := Range(CenterLow(len, k + 1), CenterHigh(len, k + 1));
    if k % 2 == 0 {
      RangeGrowsRight(lo, hi);
      assert next == Range(lo, hi + 1);
    } else {
      RangeGrowsLeft(lo, hi);
      assert next == Range(lo - 1, hi);
    }
    GrowChain(RevealNext(Center, len, prev), prev, Range(lo, hi), next, c);
  }

  /** Adding one element to equal sets gives equal sets. */
  lemma GrowChain(r: set<int>, prev: set<int>, base: set<int>, grown: set<int>, c: int)
    requires r == prev + {c} && prev == base && grown == base + {c}
    ensures r == grown
  {
  }

  /**
   * In the `center` direction, as long as `k` does not exceed the length,
   * the first `k` ticks reveal a window around the middle that grows to
   * the right and to the left in turn, and the fallback scan never runs.
   */
  lemma CenterOrder(len: nat, k: nat)
    requires k <= len
    ensures RevealedAfter(Center, len, k) == Range(CenterLow(len, k), CenterHigh(len, k))
  {
    assert CenterLow(len, 0) == CenterHigh(len, 0);
    var i := 0;
    while i < k
      invariant i <= k
      invariant RevealedAfter(Center, len, i) == Range(CenterLow(len, i), CenterHigh(len, i))
    {
      var prev := RevealedAfter(Center, len, i);
      CenterStep(len, prev, i);
      RevealedAfterUnfold(Center, len, i);
      SetChain(RevealedAfter(Center, len, i + 1), RevealNext(Center, len, prev),
               Range(CenterLow(len, i + 1), CenterHigh(len, i + 1)));
      i := i + 1;
    }
  }

  /** Set equality is transitive. */
  lemma SetChain(a: set<int>, b: set<int>, c: set<int>)
    requires a == b && b == c
    ensures a == c
  {
  }

  /** After `len` ticks every direction has revealed exactly the positions 0, ..., len - 1. */
  lemma AllRevealedAfterLength(dir: Direction, len: nat)
    ensures RevealedAfter(dir, len, len) == Range(0, len)
  {
    match dir
    case Start => StartOrder(len, len);
    case End => EndOrder(len, len);
    case Center =>
      CenterOrder(len, len);
      assert CenterLow(len, len) == 0 && CenterHigh(len, len) == len;
  }

  /** The sequential set grows by one index per tick. */
  lemma {:induction false} RevealedAfterSize(dir: Direction, len: nat, k: nat)
    requires k <= len
    ensures |RevealedAfter(dir, len, k)| == k
  {
    match dir
    case Start => StartOrder(len, k); RangeCard(0, k);
    case End => EndOrder(len, k); RangeCard(len - k, len);
    case Center => CenterOrder(len, k); RangeCard(CenterLow(len, k), CenterHigh(len, k));
  }

  /** While fewer than `len` indices are revealed, fewer than `len` ticks have run. */
  lemma RevealedShortOfLength(dir: Direction, len: nat, k: nat)
    requires k <= len
    ensures |RevealedAfter(dir, len, k + 1)| < len ==> k + 1 < len
  {
    if k < len {
      RevealedAfterSize(dir, len, k + 1);
    } else {
      RevealedAfterSize(dir, len, len);
      RevealedAfterUnfold(dir, len, len);
      SubsetCard(RevealedAfter(dir, len, len), RevealedAfter(dir, len, len + 1));
    }
  }

  /** A subset is no larger. */
  lemma SubsetCard(a: set<int>, b: set<int>)
    requires a <= b
    ensures |a| <= |b|
  {
    assert b == a + (b - a);
  }

  // ---------------------------------------------------------------------
  // Properties of the reveal count

  lemma DivMonotone(a: int, b: int, d: int)
    requires 0 <= a <= b && 0 < d
    ensures a / d <= b / d
  {
    var qa, qb := a / d, b / d;
    if qa > qb {
      MulStep(d, qb, qa);
    }
  }

  lemma MulStep(d: int, x: int, y: int)
    requires 0 < d && x < y
    ensures d * x + d <= d * y
  {
    assert d * y - d * x == d * (y - x);
    MulMonotone(d, 1, y - x);
  }

  lemma MulMonotone(d: int, x: int, y: int)
    requires 0 < d && x <= y
    ensures d * x <= d * y
  {
  }

  /** The count never shrinks as the iteration grows. */
  lemma RevealCountMonotone(i1: nat, i2: nat, maxIterations: int, len: nat)
    requires i1 <= i2
    ensures RevealCount(i1, maxIterations, len) <= RevealCount(i2, maxIterations, len)
  {
    if maxIterations > 0 {
      MulMonotone(len + 1, i1, i2);
      assert i1 * len <= i2 * len by {
        if len > 0 { MulMonotone(len, i1, i2); }
      }
      DivMonotone(i1 * len, i2 * len, maxIterations);
    }
  }

  /** Once the iteration reaches a positive maximum, the whole text is revealed. */
  lemma RevealCountFull(iteration: nat, maxIterations: int, len: nat)
    requires 0 < maxIterations <= iteration
    ensures RevealCount(iteration, maxIterations, len) == len
  {
    assert maxIterations * len <= iteration * len by {
      if len > 0 { MulMonotone(len, maxIterations, iteration); }
    }
    DivMonotone(maxIterations * len, iteration * len, maxIterations);
    assert maxIterations * len / maxIterations == len;
  }
}

=== FILE: scramble.dfy ===
/**
 * The scrambled-text effect of decrypted-text.js (`DecryptedTextEffect`):
 * its configuration, the lifecycle flags driven by pointer, focus and
 * visibility events, and the interval tick that scrambles the text and
 * ends the run. Timers become an explicit `interval` field and
 * `Math.random` a `noise` function supplied with every tick.
 */
module Scramble {
  import opened Wrappers
  import opened JsString
  import opened RevealOrder

  const DefaultPool := "ABCDEFGHIJKLMNOPQRSTUVWXYZabcdefghijklmnopqrstuvwxyz0123456789!@#$%^&*()_+{}[]<>?/"
  const DefaultSpeed := 50
  const DefaultMaxIterations := 12
  /** The shortest interval period the effect asks for, in milliseconds. */
  const MinPeriod := 16

  /** `data-decrypt-animate`, lower-cased: which events start the effect. */
  datatype Trigger = Hover | View | Both | Never

  /**
   * The `data-decrypt-*` attributes of the element. `None` stands for an
   * absent or empty attribute; the two numeric ones are given as
   * `parseInt` already read them.
   */
  datatype Attributes = Attributes(
    text: Option<string>,
    speed: Option<int>,
    maxIterations: Option<int>,
    characters: Option<string>,
    animate: Option<string>,
    direction: Option<string>,
    sequential: Option<string>)

  datatype Config = Config(
    original: string,
    speed: int,
    maxIterations: int,
    pool: string,
    trigger: Trigger,
    direction: Direction,
    sequential: bool)

  /** A running `setInterval`: its period and the `runOnce` flag its callback closed over. */
  datatype Interval = Interval(period: int, runOnce: bool)

  /** The effect's state; `display` is the element's text content. */
  datatype Effect = Effect(
    config: Config,
    iteration: nat,
    isScrambling: bool,
    hasAnimated: bool,
    revealed: set<int>,
    interval: Option<Interval>,
    display: string)

  /** `a || b` on strings: the first when it is non-empty. */
  function OrElse(a: Option<string>, b: string): (r: string)
    ensures a.Some? && a.value != "" ==> r == a.value
    ensures !(a.Some? && a.value != "") ==> r == b
  {
    if a.Some? && a.value != "" then a.value else b
  }

  function ParseTrigger(s: string): Trigger {
    if s == "hover" then Hover else if s == "view" then View else if s == "both" then Both else Never
  }

  function ParseDirection(s: string): Direction {
    if s == "end" then End else if s == "center" then Center else Start
  }

  /** Lines 29-34: pointer and focus listeners exist for `hover` and `both`. */
  predicate ListensHover(t: Trigger) { t == Hover || t == Both }

  /** Lines 36-48: an intersection observer exists for `view` and `both`. */
  predicate ListensView(t: Trigger) { t == View || t == Both }

  /** The constructor (lines 4-23): attributes or defaults, nothing running, the original text shown. */
  function NewEffect(a: Attributes, textContent: string): (e: Effect)
    ensures e.display == e.config.original
    ensures !e.isScrambling && !e.hasAnimated && e.iteration == 0 && e.revealed == {} && e.interval.None?
  {
    var config := Config(
      OrElse(a.text, textContent),
      a.speed.GetOr(DefaultSpeed),
      a.maxIterations.GetOr(DefaultMaxIterations),
      OrElse(a.characters, DefaultPool),
      ParseTrigger(ToLower(OrElse(a.animate, "hover"))),
      ParseDirection(ToLower(OrElse(a.direction, "start"))),
      a.sequential == Some("true"));
    Effect(config, 0, false, false, {}, None, config.original)
  }

  function Max(a: int, b: int): int { if a < b then b else a }

  /** `stopScramble(skipReset)`: clear the interval; unless told to skip it, also reset flags, set and text. */
  function StopScramble(e: Effect, skipReset: bool): (r: Effect)
    ensures r.interval.None? && r.config == e.config && r.iteration == e.iteration
    ensures r.hasAnimated == e.hasAnimated
    ensures skipReset ==> r == e.(interval := None)
    ensures !skipReset ==> !r.isScrambling && r.revealed == {} && r.display == e.config.original
  {
    var cleared := e.(interval := None);
    if skipReset then cleared
    else cleared.(isScrambling := false, revealed := {}, display := e.config.original)
  }

  /** `finish`: stop without reset, then show the original text and drop the scrambling flag. */
  function Finish(e: Effect): (r: Effect)
    ensures r.interval.None? && !r.isScrambling && r.display == e.config.original
    ensures r.config == e.config && r.iteration == e.iteration && r.revealed == e.revealed
  {
    StopScramble(e, true).(display := e.config.original, isScrambling := false)
  }

  /**
   * `startScramble(runOnce)`: nothing while a run is going; otherwise stop
   * any interval, reset the counters and start a new interval whose period
   * is the configured speed, raised to 16 ms when it is shorter.
   */
  function StartScramble(e: Effect, runOnce: bool): (r: Effect)
    ensures e.isScrambling ==> r == e
    ensures !e.isScrambling ==> r.isScrambling && r.iteration == 0 && r.revealed == {}
    ensures !e.isScrambling ==> r.interval.Some? && r.interval.value.period >= MinPeriod
    ensures !e.isScrambling ==> r.interval.value.period == Max(MinPeriod, e.config.speed)
    ensures !e.isScrambling ==> r.interval.value.runOnce == runOnce
    ensures r.config == e.config && r.display == e.display && r.hasAnimated == e.hasAnimated
  {
    if e.isScrambling then e
    else
      var stopped := StopScramble(e, true);
      stopped.(isScrambling := true, iteration := 0, revealed := {},
               interval := Some(Interval(Max(MinPeriod, e.config.speed), runOnce)))
  }

  /** The `pointerenter` and `focus` listeners. */
  function PointerEnter(e: Effect): (r: Effect)
    ensures ListensHover(e.config.trigger) ==> r == StartScramble(e, false)
    ensures !ListensHover(e.config.trigger) ==> r == e
  {
    if ListensHover(e.config.trigger) then StartScramble(e, false) else e
  }

  /** The `pointerleave` and `blur` listeners. */
  function PointerLeave(e: Effect): (r: Effect)
    ensures ListensHover(e.config.trigger) ==> r == StopScramble(e, false)
    ensures !ListensHover(e.config.trigger) ==> r == e
  {
    if ListensHover(e.config.trigger) then StopScramble(e, false) else e
  }

  /**
   * The intersection observer callback for one entry: the first time the
   * element is seen, start a run that does not re-arm and mark the effect
   * as animated, even when a hover run was already going.
   */
  function Intersect(e: Effect, isIntersecting: bool): (r: Effect)
    ensures !ListensView(e.config.trigger) || !isIntersecting || e.hasAnimated ==> r == e
    ensures ListensView(e.config.trigger) && isIntersecting ==> r.hasAnimated
    ensures ListensView(e.config.trigger) && isIntersecting && !e.hasAnimated ==>
      r == StartScramble(e, true).(hasAnimated := true)
  {
    if ListensView(e.config.trigger) && isIntersecting && !e.hasAnimated then
      StartScramble(e, true).(hasAnimated := true)
    else e
  }

  /** Whether position `i` shows its own character (line 133). */
  predicate IsShown(e: Effect, revealCount: nat, i: int) {
    if e.config.sequential then i in e.revealed else i < revealCount
  }

  /** The reveal count of line 122-124. */
  function CurrentRevealCount(e: Effect): nat {
    if e.config.sequential then |e.revealed|
    else RevealCount(e.iteration, e.config.maxIterations, |e.config.original|)
  }

  /** The character `updateText` writes at position `i`. */
  function Glyph(e: Effect, noise: nat -> nat, i: nat): char
    requires i < |e.config.original|
  {
    var c := e.config.original[i];
    var pool := e.config.pool;
    if c == ' ' then ' '
    else if IsShown(e, CurrentRevealCount(e), i) then c
    else if |pool| > 0 then pool[noise(i) % |pool|]
    else c
  }

  /**
   * `updateText`: every position keeps its space or its revealed
   * character, and the others show a character drawn from the pool (the
   * original character when the pool is empty). `noise(i)` stands for
   * the random draw at position `i`.
   */
  function UpdateText(e: Effect, noise: nat -> nat): (r: string)
    ensures |r| == |e.config.original|
    ensures forall i :: 0 <= i < |r| && e.config.original[i] == ' ' ==> r[i] == ' '
    ensures forall i :: 0 <= i < |r| && IsShown(e, CurrentRevealCount(e), i) ==> r[i] == e.config.original[i]
    ensures forall i :: 0 <= i < |r| && !IsShown(e, CurrentRevealCount(e), i) && e.config.original[i] != ' ' ==>
      (if |e.config.pool| > 0 then r[i] in e.config.pool else r[i] == e.config.original[i])
  {
    seq(|e.config.original|, i requires 0 <= i < |e.config.original| => Glyph(e, noise, i))
  }

  /** Line 63: the run ends at the maximum iteration or once every character is revealed. */
  predicate RunOver(e: Effect) {
    e.iteration >= e.config.maxIterations || |e.revealed| >= |e.config.original|
  }

  /**
   * One firing of the interval callback (lines 57-69): count the
   * iteration, reveal the next index in sequential mode, redraw, and
   * finish when the run is over.
   */
  function Tick(e: Effect, noise: nat -> nat): (r: Effect)
    requires e.interval.Some?
    ensures r.config == e.config && r.iteration == e.iteration + 1
    ensures r.interval.None? <==> RunOver(r)
    ensures r.interval.None? ==> !r.isScrambling && r.display == e.config.original
    ensures r.revealed == if e.config.sequential then RevealNext(e.config.direction, |e.config.original|, e.revealed) else e.revealed
    ensures r.interval.Some? ==> r.isScrambling == e.isScrambling && r.display == UpdateText(r, noise)
  {
    var cfg := e.config;
    var revealed := if cfg.sequential then RevealNext(cfg.direction, |cfg.original|, e.revealed) else e.revealed;
    var counted := e.(iteration := e.iteration + 1, revealed := revealed);
    var drawn := counted.(display := UpdateText(counted, noise));
    if RunOver(drawn) then
      var finished := Finish(drawn);
      if !e.interval.value.runOnce && ListensHover(cfg.trigger) then finished.(isScrambling := false)
      else finished
    else drawn
  }

  /** The interval firing once per noise function, for as long as it runs. */
  function RunTicks(e: Effect, noises: seq<nat -> nat>): (r: Effect)
    ensures r.config == e.config && r.hasAnimated == e.hasAnimated
    decreases |noises|
  {
    if |noises| == 0 || e.interval.None? then e
    else RunTicks(Tick(e, noises[0]), noises[1..])
  }

  // ---------------------------------------------------------------------
  // Properties

  /** With every attribute absent the effect hovers, starts at the front, runs 12 iterations of 50 ms. */
  lemma Defaults(textContent: string)
    ensures NewEffect(Attributes(None, None, None, None, None, None, None), textContent).config
      == Config(textContent, 50, 12, DefaultPool, Hover, Start, false)
  {
    assert ToLower("hover") == "hover";
    assert ToLower("start") == "start";
  }

  /** A second start while the first is running changes nothing. */
  lemma StartIdempotent(e: Effect, once1: bool, once2: bool)
    ensures StartScramble(StartScramble(e, once1), once2) == StartScramble(e, once1)
  {
  }

  /**
   * For a hover trigger, entering an idle element starts a run, and leaving
   * after any number of ticks of that run restores the original text and
   * stops every timer.
   */
  lemma LeaveRestores(e: Effect, noises: seq<nat -> nat>)
    requires ListensHover(e.config.trigger)
    ensures !e.isScrambling ==> PointerEnter(e).isScrambling && PointerEnter(e).interval.Some?
    ensures var r := PointerLeave(RunTicks(PointerEnter(e), noises));
      && r.display == e.config.original && r.interval.None? && !r.isScrambling && r.revealed == {}
      && r.config == e.config
  {
  }

  /** The element is animated by the observer at most once: a second sighting does nothing. */
  lemma IntersectOnce(e: Effect)
    ensures Intersect(Intersect(e, true), true) == Intersect(e, true)
  {
  }

  /** Once every position is revealed, the redraw is the original text, whatever the noise. */
  lemma FullRevealIsOriginal(e: Effect, noise: nat -> nat)
    requires forall i :: 0 <= i < |e.config.original| ==> IsShown(e, CurrentRevealCount(e), i)
    ensures UpdateText(e, noise) == e.config.original
  {
  }

  /** A running interval whose iteration budget is spent ends on the next firing. */
  lemma {:induction false} RunEnds(e: Effect, noises: seq<nat -> nat>)
    requires e.interval.Some?
    requires |noises| >= 1 && e.iteration + |noises| >= e.config.maxIterations
    ensures var r := RunTicks(e, noises);
      r.interval.None? && !r.isScrambling && r.display == e.config.original
    decreases |noises|
  {
    var next := Tick(e, noises[0]);
    if next.interval.Some? {
      RunEnds(next, noises[1..]);
    }
  }

  /**
   * A run started from rest ends, the interval cleared and the original
   * text back, after at most `max(1, maxIterations)` firings.
   */
  lemma StartedRunEnds(e: Effect, once: bool, noises: seq<nat -> nat>)
    requires !e.isScrambling
    requires |noises| >= Max(1, e.config.maxIterations)
    ensures var r := RunTicks(StartScramble(e, once), noises);
      r.interval.None? && !r.isScrambling && r.display == e.config.original
  {
    RunEnds(StartScramble(e, once), noises);
  }

  /** In sequential mode a tick that does not end the run reveals the next index of the direction's order. */
  lemma TickFollowsOrder(e: Effect, noise: nat -> nat)
    requires e.interval.Some? && e.config.sequential
    requires e.revealed == RevealedAfter(e.config.direction, |e.config.original|, e.iteration)
    ensures Tick(e, noise).revealed == RevealedAfter(e.config.direction, |e.config.original|, e.iteration + 1)
  {
  }

  /**
   * In sequential mode the run also ends once every character is
   * revealed: a run started from rest is over after the text's length in
   * firings, and the indices come out in the direction's order.
   */
  lemma SequentialRunEnds(e: Effect, noises: seq<nat -> nat>)
    requires SequentialOnTrack(e)
    requires |noises| >= 1 && e.iteration + |noises| >= |e.config.original|
    ensures var r := RunTicks(e, noises);
      r.interval.None? && !r.isScrambling && r.display == e.config.original
  {
    var cur, rest := e, noises;
    while cur.interval.Some?
      invariant RunTicks(cur, rest) == RunTicks(e, noises) && cur.config == e.config
      invariant cur.interval.None? ==> !cur.isScrambling && cur.display == e.config.original
      invariant cur.interval.Some? ==>
        SequentialOnTrack(cur) && |rest| >= 1 && cur.iteration + |rest| >= |e.config.original|
      decreases |rest|
    {
      SequentialTick(cur, rest[0]);
      RunTicksFires(cur, rest);
      cur, rest := Tick(cur, rest[0]), rest[1..];
    }
    RunTicksStopped(cur, rest);
  }

  /** A running sequential effect whose revealed set is the direction's first `iteration` indices. */
  predicate SequentialOnTrack(e: Effect) {
    && e.interval.Some? && e.config.sequential
    && e.iteration <= |e.config.original|
    && e.revealed == RevealedAfter(e.config.direction, |e.config.original|, e.iteration)
  }

  /** One sequential firing either ends the run with the original text, or stays on track short of the length. */
  lemma SequentialTick(e: Effect, noise: nat -> nat)
    requires SequentialOnTrack(e)
    ensures var n := Tick(e, noise);
      && n.config == e.config
      && (n.interval.None? ==> !n.isScrambling && n.display == e.config.original)
      && (n.interval.Some? ==>
            SequentialOnTrack(n) && n.iteration == e.iteration + 1 && n.iteration < |e.config.original|)
  {
    TickFollowsOrder(e, noise);
    OnTrackStep(e, Tick(e, noise));
  }

  /** The counting behind `SequentialTick`, for any successor that keeps the tick's bookkeeping. */
  lemma OnTrackStep(e: Effect, n: Effect)
    requires SequentialOnTrack(e)
    requires n.config == e.config && n.iteration == e.iteration + 1 && (n.interval.None? <==> RunOver(n))
    requires n.revealed == RevealedAfter(e.config.direction, |e.config.original|, e.iteration + 1)
    ensures n.interval.Some? ==> SequentialOnTrack(n) && n.iteration < |e.config.original|
  {
    RevealedShortOfLength(e.config.direction, |e.config.original|, e.iteration);
  }

  /** A running interval fires once and the rest of the firings follow. */
  lemma RunTicksFires(e: Effect, noises: seq<nat -> nat>)
    requires e.interval.Some? && |noises| > 0
    ensures RunTicks(e, noises) == RunTicks(Tick(e, noises[0]), noises[1..])
  {
  }

  /** A cleared interval fires no more. */
  lemma RunTicksStopped(e: Effect, noises: seq<nat -> nat>)
    requires e.interval.None?
    ensures RunTicks(e, noises) == e
  {
  }
}

=== FILE: sections.dfy ===
/**
 * Hash routing of the single-page site (app.js `handleHashChange`): the
 * location hash picks the one section that is shown, an unknown hash falls
 * back to `#menu`, and the navigation links mark the current page.
 */
module Sections {
  import opened Wrappers
  import opened JsString

  const MenuHash := "#menu"

  /** A `.section` element: its id and whether it is hidden and carries the `active` class. */
  datatype Section = Section(id: string, hidden: bool, active: bool)

  /** A `.nav-link`: its `href` attribute (`None` when absent) and its `aria-current` value. */
  datatype NavLink = NavLink(href: Option<string>, ariaCurrent: string)

  /** The parts of the page the handler touches; `navOpen` is the header's `open` class. */
  datatype Page = Page(sections: seq<Section>, links: seq<NavLink>, navOpen: bool)

  /** The hash the page settles on, and the URL written by `history.replaceState` if it ran. */
  datatype Resolution = Resolution(hash: string, replaced: Option<string>)

  /** The id set built once from the sections at start-up. */
  function SectionIds(sections: seq<Section>): set<string> {
    set k | 0 <= k < |sections| :: sections[k].id
  }

  /**
   * Lines 75-79: an empty hash reads as `#menu`; a hash whose text without
   * its first `#` is no known id is replaced by `#menu` in the history.
   */
  function ResolveHash(locationHash: string, ids: set<string>): (r: Resolution)
    ensures r.replaced.Some? ==> r.replaced.value == r.hash == MenuHash
    ensures r.hash == MenuHash || ReplaceFirst(r.hash, '#') in ids
    ensures r.replaced.None? ==> r.hash == (if locationHash == "" then MenuHash else locationHash)
  {
    var hash := if locationHash == "" then MenuHash else locationHash;
    if ReplaceFirst(hash, '#') !in ids then Resolution(MenuHash, Some(MenuHash))
    else Resolution(hash, None)
  }

  /** Lines 81-84: a section is shown and active exactly when `#` + its id is the hash. */
  function ShowSection(s: Section, hash: string): (r: Section)
    ensures r.id == s.id && r.hidden == !r.active
    ensures r.active <==> "#" + s.id == hash
  {
    var matches := "#" + s.id == hash;
    Section(s.id, !matches, matches)
  }

  /** Lines 90-93: a link is the current page exactly when its `href` is the hash. */
  function MarkLink(l: NavLink, hash: string): (r: NavLink)
    ensures r.href == l.href
    ensures r.ariaCurrent == (if l.href == Some(hash) then "page" else "false")
  {
    NavLink(l.href, if l.href == Some(hash) then "page" else "false")
  }

  /** `handleHashChange`: resolve the hash, show its section, mark its links and close the menu. */
  function HandleHashChange(p: Page, locationHash: string): (r: (Page, Resolution))
    ensures r.1 == ResolveHash(locationHash, SectionIds(p.sections))
    ensures |r.0.sections| == |p.sections| && |r.0.links| == |p.links|
    ensures forall k :: 0 <= k < |p.sections| ==> r.0.sections[k] == ShowSection(p.sections[k], r.1.hash)
    ensures forall k :: 0 <= k < |p.links| ==> r.0.links[k] == MarkLink(p.links[k], r.1.hash)
    ensures !r.0.navOpen
  {
    var res := ResolveHash(locationHash, SectionIds(p.sections));
    var secs := seq(|p.sections|, k requires 0 <= k < |p.sections| => ShowSection(p.sections[k], res.hash));
    var links := seq(|p.links|, k requires 0 <= k < |p.links| => MarkLink(p.links[k], res.hash));
    (Page(secs, links, false), res)
  }

  // ---------------------------------------------------------------------
  // Properties

  /**
   * A location hash (empty or starting with `#`) settles on `#` + a known
   * id or on `#menu`; it is kept exactly when it names a known id.
   */
  lemma ResolvedHashIsKnown(locationHash: string, ids: set<string>)
    requires locationHash == "" || locationHash[0] == '#'
    ensures var r := ResolveHash(locationHash, ids);
      && (r.hash == MenuHash || exists id :: id in ids && r.hash == "#" + id)
      && (locationHash != "" ==> (r.hash == locationHash <==> locationHash[1..] in ids || locationHash == MenuHash))
  {
    var hash := if locationHash == "" then MenuHash else locationHash;
    assert hash == "" + "#" + hash[1..];
    ReplaceFirstSplit("", '#', hash[1..]);
    assert ReplaceFirst(hash, '#') == hash[1..];
  }

  /** Resolving the settled hash again settles on the same hash. */
  lemma ResolveIdempotent(locationHash: string, ids: set<string>)
    ensures var h := ResolveHash(locationHash, ids).hash;
      ResolveHash(h, ids).hash == h
  {
  }

  /** A hash naming a known section is kept as it is, without a history write. */
  lemma KnownHashKept(id: string, ids: set<string>)
    requires id in ids
    ensures ResolveHash("#" + id, ids) == Resolution("#" + id, None)
  {
    ReplaceFirstSplit("", '#', id);
    assert "" + "#" + id == "#" + id && "" + id == id;
  }

  /**
   * With distinct section ids, one of them `menu`, a location hash leaves
   * exactly one section visible: the one its resolved hash names.
   */
  lemma ExactlyOneVisible(p: Page, locationHash: string)
    requires locationHash == "" || locationHash[0] == '#'
    requires forall i, j :: 0 <= i < j < |p.sections| ==> p.sections[i].id != p.sections[j].id
    requires "menu" in SectionIds(p.sections)
    ensures var r := HandleHashChange(p, locationHash);
      exists k :: 0 <= k < |p.sections| && !r.0.sections[k].hidden
        && forall m :: 0 <= m < |p.sections| && m != k ==> r.0.sections[m].hidden
  {
    var ids := SectionIds(p.sections);
    var r := HandleHashChange(p, locationHash);
    var h := r.1.hash;
    ResolvedHashIsKnown(locationHash, ids);
    var id: string;
    if h == MenuHash {
      id := "menu";
    } else {
      id :| id in ids && h == "#" + id;
    }
    assert h == "#" + id;
    var k :| 0 <= k < |p.sections| && p.sections[k].id == id;
    assert !r.0.sections[k].hidden;
    forall m | 0 <= m < |p.sections| && m != k ensures r.0.sections[m].hidden {
      assert p.sections[m].id != id;
      HashPrefixInjective(p.sections[m].id, id);
    }
  }

  lemma HashPrefixInjective(a: string, b: string)
    requires a != b
    ensures "#" + a != "#" + b
  {
    assert ("#" + a)[1..] == a && ("#" + b)[1..] == b;
  }
}

=== FILE: text_type.dfy ===
/**
 * The typewriter of text-type.js (`Typewriter`): the sentence list read
 * from a `data-type-text` attribute and the step machine that types the
 * current sentence one character per tick, pauses, deletes it, and moves
 * on to the next. `setTimeout` becomes the delay a step returns; JSON
 * parsing is an input.
 */
module TextType {
  import opened Wrappers

  const DefaultSpeed: real := 60.0
  const DefaultPause: real := 2000.0
  const DefaultDeletingSpeed: real := 40.0
  const DefaultLoop := false
  const DefaultCursor := true
  const DefaultCursorChar := "|"
  /** The delay before typing the next sentence starts. */
  const AdvanceDelay: real := 400.0

  /**
   * A JSON value as the typewriter sees it: a string, a scalar (number,
   * boolean or null) with its `String()` form and truthiness, or an array
   * or object with its `String()` form.
   */
  datatype JValue = JString(s: string) | JScalar(shown: string, truthy: bool) | JCompound(shown: string)

  /** `String(v)`. */
  function Shown(v: JValue): string {
    match v
    case JString(s) => s
    case JScalar(shown, _) => shown
    case JCompound(shown) => shown
  }

  predicate Truthy(v: JValue) {
    match v
    case JString(s) => s != ""
    case JScalar(_, truthy) => truthy
    case JCompound(_) => true
  }

  /** What `JSON.parse(raw)` gave: an array, some other value, or an exception. */
  datatype Parsed = ParsedArray(items: seq<JValue>) | ParsedValue(value: JValue) | Unparsable

  /**
   * `parseSentences(raw)`: nothing for a missing or empty attribute, an
   * array as it is, any other value as its string, and text that is not
   * JSON as itself.
   */
  function ParseSentences(raw: Option<string>, parsed: Parsed): (r: seq<JValue>)
    ensures raw.None? || raw == Some("") ==> r == []
    ensures raw.Some? && raw.value != "" && parsed.ParsedArray? ==> r == parsed.items
    ensures raw.Some? && raw.value != "" && !parsed.ParsedArray? ==> |r| == 1 && r[0].JString?
    ensures raw.Some? && raw.value != "" && parsed.ParsedValue? ==> r == [JString(Shown(parsed.value))]
    ensures raw.Some? && raw.value != "" && parsed.Unparsable? ==> r == [JString(raw.value)]
  {
    if raw.None? || raw.value == "" then []
    else match parsed
      case ParsedArray(items) => items
      case ParsedValue(v) => [JString(Shown(v))]
      case Unparsable => [JString(raw.value)]
  }

  datatype Options = Options(
    speed: real,
    pause: real,
    deletingSpeed: real,
    loop: bool,
    cursorChar: string,
    showCursor: bool)

  /**
   * The `data-type-*` attributes. `None` stands for an absent or empty
   * attribute; the three delays are given as `parseFloat` read them.
   */
  datatype Attributes = Attributes(
    text: Option<string>,
    speed: Option<real>,
    pause: Option<real>,
    deleting: Option<real>,
    loop: Option<string>,
    cursor: Option<string>,
    colors: Option<string>,
    startOnVisible: Option<string>)

  /** The typewriter state; `shown` is the content span's text, `color` the value last assigned to its style colour (line 108). */
  datatype Typer = Typer(
    sentences: seq<JValue>,
    colors: seq<JValue>,
    opts: Options,
    currentSentence: nat,
    currentChar: nat,
    isDeleting: bool,
    shown: string,
    color: Option<string>)

  /** The constructor (lines 12-27), given the parse outcomes of the text and colour attributes. */
  function NewTyper(a: Attributes, text: Parsed, colors: Parsed): (t: Typer)
    ensures t.currentSentence == 0 && t.currentChar == 0 && !t.isDeleting && t.shown == ""
    ensures t.sentences == ParseSentences(a.text, text) && t.colors == ParseSentences(a.colors, colors)
  {
    var cursorChar := if a.cursor.Some? && a.cursor.value != "" then a.cursor.value else DefaultCursorChar;
    var opts := Options(
      a.speed.GetOr(DefaultSpeed),
      a.pause.GetOr(DefaultPause),
      a.deleting.GetOr(DefaultDeletingSpeed),
      a.loop == Some("true"),
      cursorChar,
      a.cursor != Some("false"));
    Typer(ParseSentences(a.text, text), ParseSentences(a.colors, colors), opts, 0, 0, false, "", None)
  }

  /** Lines 28-34: only `data-type-start-on-visible="true"` waits for the element to be seen. */
  predicate StartsAtOnce(a: Attributes) {
    a.startOnVisible != Some("true")
  }

  /** The current sentence as characters, or a throw when it is a truthy value without `split`. */
  datatype Sentence = Chars(s: string) | Throws

  /** Line 93-94: `this.sentences[this.currentSentence] || ''`, then `.split('')`. */
  function CurrentText(t: Typer): Sentence {
    if t.currentSentence < |t.sentences| then
      match t.sentences[t.currentSentence]
      case JString(s) => Chars(s)
      case JScalar(_, truthy) => if truthy then Throws else Chars("")
      case JCompound(_) => Throws
    else Chars("")
  }

  /** The result of one `tick`: the next tick scheduled after a delay, a final halt, or a thrown error. */
  datatype Step = Scheduled(next: Typer, delay: real) | Halted(last: Typer) | Threw

  /** Lines 105-110: the colour for the current sentence, when it is truthy. */
  function NextColor(t: Typer): Option<string> {
    if |t.colors| > 0 then
      var c := t.colors[t.currentSentence % |t.colors|];
      if Truthy(c) then Some(Shown(c)) else t.color
    else t.color
  }

  /** `fullText.slice(0, n)`: a prefix, clamped to the text. */
  function Prefix(s: string, n: nat): (r: string)
    ensures |r| == if n < |s| then n else |s|
    ensures r <= s
  {
    if n < |s| then s[..n] else s
  }

  /**
   * `tick` (lines 92-129). Deleting moves the cursor one back, typing one
   * forward within the sentence; a fully typed sentence either halts (last
   * sentence, no loop) or starts deleting after the pause; a fully deleted
   * one moves to the next sentence after 400 ms.
   */
  function Tick(t: Typer): (r: Step)
    requires |t.sentences| > 0
    ensures CurrentText(t).Throws? <==> r.Threw?
    ensures r.Scheduled? ==> r.next.sentences == t.sentences && r.next.colors == t.colors && r.next.opts == t.opts
    ensures r.Scheduled? && t.currentSentence < |t.sentences| ==> r.next.currentSentence < |t.sentences|
    ensures r.Halted? ==> !t.isDeleting && !t.opts.loop && t.currentSentence == |t.sentences| - 1
  {
    match CurrentText(t)
    case Throws => Threw
    case Chars(full) =>
      var cc := if t.isDeleting then (if t.currentChar == 0 then 0 else t.currentChar - 1)
                else (if t.currentChar + 1 < |full| then t.currentChar + 1 else |full|);
      var nextText := Prefix(full, cc);
      var t1 := t.(currentChar := cc, shown := nextText, color := NextColor(t));
      if !t.isDeleting && nextText == full then
        if !t.opts.loop && t.currentSentence == |t.sentences| - 1 then Halted(t1)
        else Scheduled(t1.(isDeleting := true), t.opts.pause)
      else if t.isDeleting && nextText == "" then
        Scheduled(t1.(isDeleting := false, currentSentence := (t.currentSentence + 1) % |t.sentences|), AdvanceDelay)
      else if t.isDeleting then Scheduled(t1, t.opts.deletingSpeed)
      else Scheduled(t1, t.opts.speed)
  }

  /** `start`: no tick at all without sentences. */
  function Start(t: Typer): (r: Option<Step>)
    ensures r.None? <==> |t.sentences| == 0
  {
    if |t.sentences| == 0 then None else Some(Tick(t))
  }

  /**
   * The whole constructor (lines 12-34): the fresh typewriter, and the
   * first tick `start` runs at once unless the element waits to be seen.
   */
  function Construct(a: Attributes, text: Parsed, colors: Parsed): (r: (Typer, Option<Step>))
    ensures r.0 == NewTyper(a, text, colors)
    ensures !StartsAtOnce(a) ==> r.1.None?
    ensures StartsAtOnce(a) ==> (r.1.Some? <==> |r.0.sentences| > 0)
    ensures StartsAtOnce(a) ==> r.1 == Start(r.0)
  {
    var t := NewTyper(a, text, colors);
    (t, if StartsAtOnce(a) then Start(t) else None)
  }

  // ---------------------------------------------------------------------
  // The invariant of the machine

  /**
   * The sentence index is in range, the cursor lies within the current
   * sentence, and the shown text is the sentence's prefix up to the cursor.
   * A sentence that throws is only reached with nothing shown.
   */
  ghost predicate Valid(t: Typer) {
    && t.currentSentence < |t.sentences|
    && match CurrentText(t)
       case Chars(s) => t.currentChar <= |s| && t.shown == s[..t.currentChar]
       case Throws => t.currentChar == 0 && t.shown == ""
  }

  /** A fresh typewriter with at least one sentence is in a valid state. */
  lemma NewIsValid(a: Attributes, text: Parsed, colors: Parsed)
    requires |ParseSentences(a.text, text)| > 0
    ensures Valid(NewTyper(a, text, colors))
  {
  }

  /** Every step keeps the invariant. */
  lemma TickKeepsValid(t: Typer)
    requires Valid(t)
    ensures Tick(t).Scheduled? ==> Valid(Tick(t).next)
    ensures Tick(t).Halted? ==> Valid(Tick(t).last)
  {
    match CurrentText(t)
    case Throws =>
    case Chars(full) =>
      var r := Tick(t);
      if r.Scheduled? && r.next.currentSentence != t.currentSentence {
        AdvanceKeepsValid(t);
      }
  }

  lemma AdvanceKeepsValid(t: Typer)
    requires Valid(t) && CurrentText(t).Chars?
    requires Tick(t).Scheduled? && Tick(t).next.currentSentence != t.currentSentence
    ensures Valid(Tick(t).next)
  {
    var n := Tick(t).next;
    assert n.currentChar == 0 && n.shown == "";
    match CurrentText(n)
    case Chars(s) => assert s[..0] == "";
    case Throws =>
  }

  /**
   * The delay rules of lines 112-126: the pause after a sentence is typed,
   * 400 ms after one is deleted, the deleting speed in the middle of a
   * deletion and the typing speed in the middle of typing.
   */
  lemma DelayRules(t: Typer)
    requires Valid(t) && CurrentText(t).Chars? && Tick(t).Scheduled?
    ensures var s := CurrentText(t).s; var r := Tick(t);
      && (!t.isDeleting && t.currentChar + 1 >= |s| ==> r.next.isDeleting && r.delay == t.opts.pause)
      && (!t.isDeleting && t.currentChar + 1 < |s| ==> !r.next.isDeleting && r.delay == t.opts.speed)
      && (t.isDeleting && t.currentChar <= 1 ==>
            !r.next.isDeleting && r.delay == AdvanceDelay
            && r.next.currentSentence == (t.currentSentence + 1) % |t.sentences|)
      && (t.isDeleting && t.currentChar > 1 ==> r.next.isDeleting && r.delay == t.opts.deletingSpeed)
  {
    var s := CurrentText(t).s;
    if !t.isDeleting && t.currentChar + 1 < |s| {
      assert Prefix(s, t.currentChar + 1) != s;
    }
    if t.isDeleting && t.currentChar > 1 {
      assert |Prefix(s, t.currentChar - 1)| > 0;
    }
  }

  /**
   * Lines 114-117: on the last sentence without looping, typing its final
   * character halts the machine with the whole sentence shown.
   */
  lemma HaltsOnLastSentence(t: Typer)
    requires Valid(t) && CurrentText(t).Chars? && !t.isDeleting && !t.opts.loop
    requires t.currentSentence == |t.sentences| - 1 && t.currentChar + 1 >= |CurrentText(t).s|
    ensures Tick(t).Halted? && Tick(t).last.shown == CurrentText(t).s
  {
  }

  /**
   * A typewriter that starts at once on a first sentence of two or more
   * characters already shows its first character and types on at its speed.
   */
  lemma ConstructTypesFirstChar(a: Attributes, text: Parsed, colors: Parsed, s: string)
    requires StartsAtOnce(a) && |s| >= 2
    requires |ParseSentences(a.text, text)| > 0 && ParseSentences(a.text, text)[0] == JString(s)
    ensures var (t, step) := Construct(a, text, colors);
      && step.Some? && step.value.Scheduled?
      && step.value.next.shown == s[..1] && step.value.delay == t.opts.speed
  {
  }

  /** Lines 105-110: the colour is that of the current sentence, taken cyclically, when it is truthy. */
  lemma ColorRule(t: Typer)
    requires |t.sentences| > 0 && CurrentText(t).Chars?
    ensures var r := Tick(t);
      var n := if r.Scheduled? then r.next else r.last;
      && (|t.colors| > 0 && Truthy(t.colors[t.currentSentence % |t.colors|]) ==>
            n.color == Some(Shown(t.colors[t.currentSentence % |t.colors|])))
      && (|t.colors| > 0 && !Truthy(t.colors[t.currentSentence % |t.colors|]) ==> n.color == t.color)
      && (|t.colors| == 0 ==> n.color == t.color)
  {
  }

  // ---------------------------------------------------------------------
  // Runs

  /** The state after `k` scheduled ticks, if none of them halted or threw. */
  function Run(t: Typer, k: nat): Option<Typer>
    requires |t.sentences| > 0
    decreases k
  {
    if k == 0 then Some(t)
    else match Tick(t)
      case Scheduled(next, _) => Run(next, k - 1)
      case _ => None
  }

  /** Typing `k` more characters that do not finish the sentence shows the sentence's prefix of that length. */
  lemma {:induction false} TypingTrace(t: Typer, k: nat)
    requires Valid(t) && CurrentText(t).Chars? && !t.isDeleting
    requires t.currentChar + k < |CurrentText(t).s|
    ensures var r := Run(t, k);
      && r.Some? && r.value.shown == CurrentText(t).s[..t.currentChar + k]
      && !r.value.isDeleting && r.value.currentSentence == t.currentSentence
      && r.value.currentChar == t.currentChar + k
    decreases k
  {
    if k > 0 {
      var s := CurrentText(t).s;
      DelayRules(t);
      var n := Tick(t).next;
      assert CurrentText(n) == CurrentText(t);
      TickKeepsValid(t);
      TypingTrace(n, k - 1);
    }
  }

  /** Deleting `k` characters that do not empty the sentence shows the shorter prefix. */
  lemma {:induction false} DeletingTrace(t: Typer, k: nat)
    requires Valid(t) && CurrentText(t).Chars? && t.isDeleting
    requires k < t.currentChar
    ensures var r := Run(t, k);
      && r.Some? && r.value.shown == CurrentText(t).s[..t.currentChar - k]
      && r.value.isDeleting && r.value.currentSentence == t.currentSentence
    decreases k
  {
    if k > 0 {
      DelayRules(t);
      var n := Tick(t).next;
      assert CurrentText(n) == CurrentText(t);
      TickKeepsValid(t);
      DeletingTrace(n, k - 1);
    }
  }
}

=== FILE: tracks.dfy ===
/**
 * The saved-track library of app.js: the delete button's id filter and the
 * save button that puts the current draft at the front of the list.
 */
module Tracks {
  import opened Wrappers

  /** A generated track as it is kept in the library; `id` is the `Date.now()` stamp of its creation. */
  datatype Track = Track(
    id: int,
    title: string,
    description: string,
    topic: string,
    notes: string,
    style: string,
    concepts: seq<string>,
    audioUrl: string,
    createdAt: string)

  /** The library list, the draft of the last generation, and the save button's state. */
  datatype Library = Library(saved: seq<Track>, draft: Option<Track>, saveDisabled: bool, saveLabel: string)

  const SavedLabel := "Saved"

  /** `savedTracks.filter(item => item.id !== id)`. */
  function DeleteTrack(saved: seq<Track>, id: int): (r: seq<Track>)
    ensures |r| <= |saved|
    ensures forall k :: 0 <= k < |r| ==> r[k].id != id
    ensures forall t :: t in r <==> t in saved && t.id != id
  {
    if |saved| == 0 then []
    else
      var rest := DeleteTrack(saved[1..], id);
      assert forall t :: t in saved <==> t == saved[0] || t in saved[1..];
      if saved[0].id != id then [saved[0]] + rest else rest
  }

  /** The number of tracks in `saved` that carry `id`. */
  function CountId(saved: seq<Track>, id: int): nat {
    if |saved| == 0 then 0 else (if saved[0].id == id then 1 else 0) + CountId(saved[1..], id)
  }

  /**
   * The save button handler: without a draft it returns at once; otherwise
   * a copy of the draft goes to the front of the list and the button is
   * disabled and relabelled. The draft itself is kept.
   */
  function SaveDraft(lib: Library): (r: Library)
    ensures lib.draft.None? ==> r == lib
    ensures lib.draft.Some? ==>
      && |r.saved| == |lib.saved| + 1
      && r.saved[0] == lib.draft.value
      && r.saved[1..] == lib.saved
      && r.draft == lib.draft
      && r.saveDisabled && r.saveLabel == SavedLabel
  {
    match lib.draft
    case None => lib
    case Some(d) => Library([d] + lib.saved, lib.draft, true, SavedLabel)
  }

  // ---------------------------------------------------------------------
  // Properties

  /** Deleting works element by element, so the kept tracks stay in their order. */
  lemma {:induction false} DeleteDistributes(a: seq<Track>, b: seq<Track>, id: int)
    ensures DeleteTrack(a + b, id) == DeleteTrack(a, id) + DeleteTrack(b, id)
  {
    if |a| > 0 {
      assert (a + b)[1..] == a[1..] + b;
      DeleteDistributes(a[1..], b, id);
    } else {
      assert a + b == b;
    }
  }

  /** Exactly the tracks with the deleted id go: the length drops by their number. */
  lemma {:induction false} DeleteCount(saved: seq<Track>, id: int)
    ensures |DeleteTrack(saved, id)| == |saved| - CountId(saved, id)
    ensures CountId(DeleteTrack(saved, id), id) == 0
  {
    if |saved| > 0 {
      DeleteCount(saved[1..], id);
      var rest := DeleteTrack(saved[1..], id);
      if saved[0].id != id {
        assert ([saved[0]] + rest)[1..] == rest;
      }
    }
  }

  /** Deleting the same id twice is deleting it once. */
  lemma {:induction false} DeleteIdempotent(saved: seq<Track>, id: int)
    ensures DeleteTrack(DeleteTrack(saved, id), id) == DeleteTrack(saved, id)
  {
    if |saved| > 0 {
      DeleteIdempotent(saved[1..], id);
      var rest := DeleteTrack(saved[1..], id);
      if saved[0].id != id {
        assert ([saved[0]] + rest)[1..] == rest;
      }
    }
  }

  /** A list holding no track with the id is left exactly as it is. */
  lemma {:induction false} DeleteAbsent(saved: seq<Track>, id: int)
    requires CountId(saved, id) == 0
    ensures DeleteTrack(saved, id) == saved
  {
    if |saved| > 0 {
      DeleteAbsent(saved[1..], id);
      assert saved == [saved[0]] + saved[1..];
    }
  }

  /** Deleting the saved draft's id after saving it gives the list before the save. */
  lemma DeleteUndoesSave(lib: Library)
    requires lib.draft.Some? && CountId(lib.saved, lib.draft.value.id) == 0
    ensures DeleteTrack(SaveDraft(lib).saved, lib.draft.value.id) == lib.saved
  {
    var d := lib.draft.value;
    DeleteDistributes([d], lib.saved, d.id);
    DeleteAbsent(lib.saved, d.id);
    assert DeleteTrack([d], d.id) == [];
  }
}

=== FILE: wrappers.dfy ===
/** The optional value used across the model for JavaScript's `null`/`undefined`. */
module Wrappers {

  datatype Option<+T> = None | Some(value: T) {

    /** Returns the value held in Some, or `default` for None. */
    function GetOr(default: T): T {
      match this
      case Some(v) => v
      case None => default
    }
  }
}
